=== FILE: README.md ===
# lego_builder command-line front ends, modelled in Dafny

This project models the three command-line front ends of the lego_builder repository:

- `export_to_blender.py` exports brick assemblies to mesh files for Blender.
- `interactive_bricks.py` is the interactive renderer.
- `render_bricks.py` renders bricks to images.

The geometry is delegated to modules that are not part of this model: brick meshes, quaternion transforms, camera framing and assembly (de)serialisation. What the three scripts decide for themselves is a set of sequence and string rules, and these are what the model covers; where it departs from the scripts is listed under "Left out":

- how a construction record's `operations` are flattened into a brick list and a parallel colour list;
- how bricks are paired with colours;
- how the export format and output path are resolved;
- how per-brick and per-step files are named, and the default `debug/...` paths;
- how the `type x y z [w x y z]` lines of the assembly prompt are parsed, including the `done` sentinel;
- how steps are titled and which menu answer ends the loop.

Modules:

- `Wrappers`: `Option`, `Result` and Python truthiness of an optional string.
- `Text`: the Python string operations the scripts rely on:
  - `str.split()` and `str.strip()` over the full `str.isspace` set;
  - `str.split(',')`, `endswith` and ASCII `lower()`;
  - `f"{i}"` and `f"{i:03d}"`.
- `Paths`: `os.path.splitext` and `os.path.basename` for POSIX paths, including their edge cases:
  - `x.` has extension `.`;
  - a hidden file such as `.obj` has no extension;
  - only the last component is examined.
- `Bricks`: bricks, the error cases, `zip` of three lists, and `tuple(map(float, ...))`.
- `Export`, `Interactive`, `Render`: one module per script.

The scripts' collaborators are parameters of the model. These are `float()`, `int()`, `json.load`, `dict_to_cbrick`, `load_bricks_pc`, `render_dict_simple`, `os.path.exists` and, in `render_bricks.py`, the image renderers. A collaborator that can raise returns a `Result`, so its failure is a modelled error path; this includes the `render_bricks.py` renderer rejecting an unknown brick type and `load_bricks_pc` rejecting a malformed saved assembly. The interactive script's renderers are not parameters (see "Left out"). Images are values of a type parameter. `brick2mesh` is not a parameter: a mesh is the value `Mesh(brick, colour)`, so mesh building is taken to be total.

## Model

| member | source | states |
|---|---|---|
| Text.WordsAreWords | interactive_bricks.py:232 | `str.split()`: every token is non-empty and free of whitespace |
| Text.WordsOfSpaced | interactive_bricks.py:232 | words separated by any non-empty runs of whitespace, with any whitespace around them, split back into exactly those words |
| Text.SpacedOfWords | interactive_bricks.py:232 | every text is its split words interleaved with whitespace gaps, non-empty between words, so the tokens are the maximal non-whitespace runs |
| Text.WordsOfJoin | interactive_bricks.py:232 | splitting words joined by single spaces gives the words back |
| Text.SplitOn | export_to_blender.py:342 | `str.split(',')`: at least one part, no part holds the separator, and joining the parts with it gives the input back |
| Text.SplitOfJoin | export_to_blender.py:342 | splitting separator-free parts joined by the separator gives the parts back |
| Text.DecimalValue | render_bricks.py:80 | `f"{i}"` reads back as `i` |
| Text.DecimalInjective | render_bricks.py:80 | different numbers have different decimal forms |
| Text.PaddedDecimal | export_to_blender.py:386 | `f"{i:03d}"` is all digits, denotes `i`, and is at least three characters long; it is exactly three characters or the plain decimal form |
| Text.LowerIdempotent | export_to_blender.py:312 | lower-casing twice is lower-casing once |
| Text.StripShape | interactive_bricks.py:228 | `str.strip()` leaves text that neither starts nor ends with whitespace, and the input is that text with only whitespace before and after it |
| Text.StripIdempotent | interactive_bricks.py:228 | stripping a stripped text changes nothing |
| Paths.LastIndex | export_to_blender.py:312 | the index of the last occurrence of a character, or -1 if there is none |
| Paths.BaseName | render_bricks.py:84 | `basename`: a slash-free suffix of the path |
| Paths.BaseNameIsLongest | render_bricks.py:84 | the base name is the whole path or is preceded by a slash, so it is the longest slash-free suffix |
| Paths.Splitext | export_to_blender.py:312 | `splitext`: root + ext is the path; ext is empty or a dot followed by neither dot nor slash, after a root whose last component is not all dots |
| Paths.SplitextOfJoin | export_to_blender.py:383-384 | a root with a stem followed by an extension splits back into exactly those two parts |
| Paths.SplitextCharacterisation | export_to_blender.py:383-384 | `splitext` returns a non-empty extension exactly when root, extension and stem have that shape (both directions) |
| Paths.SplitextOfInsert | export_to_blender.py:383-386 | inserting text without dots or slashes between root and extension keeps the extension, including when there is none |
| Bricks.Zip3 | interactive_bricks.py:99-100 | `zip` of three lists: as long as the shortest list, triple `i` built from the elements at `i` |
| Bricks.ParseNumbers | interactive_bricks.py:238 | `tuple(map(float, ...))` succeeds exactly when every token parses; it then gives the values in order; otherwise it reports the first token that does not parse |
| Bricks.ParseTuple | export_to_blender.py:342 | `tuple(map(float, s.split(',')))` succeeds exactly when every comma-separated part parses, and then gives one value per part, in order |
| Bricks.ImageList | render_bricks.py:66-70 | the `only_final` flag, not the renderer, wraps the result: the image list exists exactly when the result's shape matches the flag (one image under `only_final`, a list otherwise), with one image under the flag and all of them otherwise; a mismatch is the error the callers raise |
| Export.BricksToMeshes | export_to_blender.py:79-84 | one mesh per brick, in order; brick `i` gets `colors[i]` exactly when the list is present, non-empty and longer than `i`, otherwise no colour |
| Export.EntryColor | export_to_blender.py:191-194 | a colour is recorded exactly when colours are requested and the entry has one, and it is the entry's colour |
| Export.FlattenEntries | export_to_blender.py:182-205 | the flattened brick and colour lists have equal length; without colours requested, every colour is None |
| Export.FlattenRecord | export_to_blender.py:173-205 | flattening a whole record keeps the brick and colour lists the same length |
| Export.OnlyFinalKeepsFinalSteps | export_to_blender.py:177-179 | with `only_final`, flattening the steps equals flattening only the steps whose integer key is the step count minus one |
| Export.BadStepKeyAborts | export_to_blender.py:176-179 | with `only_final`, a step key that `int()` rejects aborts the export with that key, wherever it stands after steps that flatten without error, whatever follows |
| Export.FlattenEntriesAppend | export_to_blender.py:182-205 | flattening a concatenation is the concatenation of the flattenings; the first failure wins |
| Export.EntryBricks | export_to_blender.py:183-205 | an entry contributes bricks only when its transform has a rotation and a position; a plain entry contributes exactly the one brick built from its type and transform; a composite entry with a full transform contributes whatever `dict_to_cbrick` gives, error included |
| Export.FlattenSteps | export_to_blender.py:177-205 | flattening the steps keeps the brick and colour lists the same length, and without colours requested every colour is None |
| Export.PlainEntryContributesOneBrick | export_to_blender.py:186-194 | an entry with a `brick_type` contributes one brick built from its transform, with its colour or None |
| Export.CompositeEntryContributesParts | export_to_blender.py:195-205 | a composite entry contributes all its sub-bricks in order, each with the entry's colour or None |
| Export.MissingTransformAborts | export_to_blender.py:183-184 | an entry missing its rotation or position aborts the flattening |
| Export.FileTypeForChoices | export_to_blender.py:136-146 | `obj`, `ply`, `stl` and `glb` each select their own writer, `gltf` is written as `glb`, and any other name is auto-detected |
| Export.ExportToFile | export_to_blender.py:129-146 | the write goes to the given path with the given meshes; an explicit format is kept, a missing one is inferred from the path; the writer follows the format |
| Export.InferFormat | export_to_blender.py:129-130 | the inferred format is empty or a name with neither dot nor slash |
| Export.InferFormatOfJoin | export_to_blender.py:129-130 | a path ending in `.` + format infers that format, lower-cased |
| Export.ResolveFormat | export_to_blender.py:312-313 | a non-empty flag wins; otherwise the lower-cased extension of the output; `obj` when there is none |
| Export.OutputFormat | export_to_blender.py:312-313 | without a flag: a lower-case format name with neither dot nor slash, the output's extension lower-cased when it has one, else `obj` |
| Export.EnsureExtension | export_to_blender.py:316-317 | the result is the output or the output with `.` + format appended; it ends with `.` + format, and is the output unchanged when the output already ends so |
| Export.EnsureExtensionIdempotent | export_to_blender.py:316-317 | appending the extension a second time changes nothing |
| Export.UpperCaseExtensionIsDoubled | export_to_blender.py:312-317 | an output whose extension is not lower case (`m.OBJ`) gets the lower-cased extension appended (`m.OBJ.obj`), because the inferred format is lower-cased but the suffix test is case-sensitive |
| Export.FinalOutputSplits | export_to_blender.py:312-317 | when the final output has a stem, `splitext` finds the resolved format as its extension, so export infers the same format |
| Export.SeparateWrites | export_to_blender.py:385-387 | one write per mesh: write `i` holds mesh `i` alone, at the per-mesh file name `i`, in the resolved format |
| Export.SeparateFileNamesDistinct | export_to_blender.py:383-386 | per-mesh file names are pairwise distinct |
| Export.IndexMarker | export_to_blender.py:386 | the `_<i:03d>` marker is non-empty and holds neither a dot nor a slash |
| Export.IndexMarkerInjective | export_to_blender.py:386 | different mesh indices give different markers |
| Export.SeparateFileNameKeepsExtension | export_to_blender.py:383-386 | file `i` splits into the output's root followed by its index marker, and the output's extension |
| Export.BlenderScriptIsPython | export_to_blender.py:395 | the companion script lies beside the output's root and has extension `.py` |
| Export.CustomBricks | export_to_blender.py:336-351 | bricks number min(types, positions); brick `i` has type `i`, the parsed position `i` and rotation `i` when given, else identity; failure exactly when some number in range fails to parse |
| Export.ExportFromJson | export_to_blender.py:154-211 | fails exactly when loading or flattening fails; otherwise one write to the output, in the inferred format, with mesh `i` coloured by colour `i` when colours are requested |
| Export.MeshWritesNamed | export_to_blender.py:358-361 | merged or separate writes never share a path, all keep the output's extension, and all use the resolved format |
| Export.SingleWriteWellNamed | export_to_blender.py:389-391 | a single write to the output is well named |
| Export.RouteOf | export_to_blender.py:322-378 | first match wins among `--brick_type`, a non-empty `--brick_types`, `--json_path` and `--bricks_pc_path`, the chosen route carries that flag's value, and there is no route exactly when none of them is given |
| Export.FlagRotation | export_to_blender.py:344-348 | rotation `i` fails only when the list gives an `i`-th rotation, and is then that rotation parsed; without one it is the identity |
| Export.CustomAssemblyWrites | export_to_blender.py:336-391 | the custom assembly fails exactly when some position or rotation in range fails to parse; otherwise it writes exactly the meshes of the bricks the flags describe, merged or one file per brick with the per-brick names, in the resolved format |
| Export.AssemblyFileWrites | export_to_blender.py:368-391 | a saved assembly fails exactly when `load_bricks_pc` fails, with its error; otherwise it writes exactly the meshes of the loaded bricks, merged or one file per brick |
| Export.RunExport | export_to_blender.py:294-401 | the run exits with status 1 exactly when no input is given or brick types come without positions; it crashes exactly when the chosen route's collaborator or parse fails (custom assembly: a number in range; record: loading or flattening; saved assembly: loading); the record route writes the flattened bricks with their colours; the custom route writes exactly the flag bricks; the saved-assembly route writes exactly the loaded bricks; a single brick is red with `--with_colors`; separate files are named per brick; the script path is derived from the final output |
| Interactive.AssemblyRotations | interactive_bricks.py:92-96 | one rotation per brick type |
| Interactive.CreateCustomAssembly | interactive_bricks.py:92-100 | min(types, positions) bricks of the zipped types and positions; the given rotations when their count matches the types, identity for every brick otherwise |
| Interactive.ParseSlice | interactive_bricks.py:238-241 | parsing a slice of tokens succeeds exactly when each token in it parses, and gives their values in order |
| Interactive.ParseTokens | interactive_bricks.py:232-243 | rejected exactly when there are fewer than four tokens; aborted exactly when a numeric token does not parse; otherwise it gives the brick the tokens describe |
| Interactive.ParseBrickLine | interactive_bricks.py:228-243 | the line ends input exactly when it is `done` in any case after stripping; an accepted brick has a one-word type, three position and four rotation values |
| Interactive.DoneLineOfStripped | interactive_bricks.py:228-229 | surrounding whitespace does not decide the sentinel: a line is `done` exactly when its stripped form is, and that form is four characters long |
| Interactive.ParseOfTypedLine | interactive_bricks.py:228-243 | a line typed from well-formed tokens parses to exactly the brick those tokens describe: tokens 1-3 are the position, tokens 4-7 the rotation when there are eight or more, identity otherwise |
| Interactive.StripOfJoin | interactive_bricks.py:228 | a line of space-joined words has nothing to strip |
| Interactive.TypedLineIsNotDone | interactive_bricks.py:229 | a line of two or more words is never the sentinel |
| Interactive.JoinWordsEnd | interactive_bricks.py:228 | a space-joined line of words ends with a non-space character |
| Interactive.GatherBricks | interactive_bricks.py:227-247 | the three lists grow in lockstep; each accepted entry is well formed; reading stops inside the input |
| Interactive.AbortedLineStopsGathering | interactive_bricks.py:238-242 | a line on which `float` raises ends option 3 with that error, whatever lines follow |
| Interactive.ContinuedLineKeepsFailure | interactive_bricks.py:227-247 | after an accepted or rejected line, a failure later in the input is the failure of the whole option |
| Interactive.RejectedLineChangesNothing | interactive_bricks.py:232-235 | a line with fewer than four tokens leaves the lists unchanged |
| Interactive.DoneLineEndsInput | interactive_bricks.py:228-230 | the sentinel ends input without adding anything |
| Interactive.GatherAccepted | interactive_bricks.py:237-247 | an accepted line puts its brick in front of what the later lines gather |
| Interactive.GatherTypedLines | interactive_bricks.py:223-247 | well-formed lines followed by `done` gather exactly the bricks they describe, in order, and reading stops right after `done` |
| Interactive.AssemblySession | interactive_bricks.py:223-254 | nothing is added exactly when gathering ends without error and without bricks; the assembly is handed to `create_custom_assembly` exactly when gathering succeeds with bricks and a highlight answer follows, and then holds exactly the gathered bricks and highlights exactly on a `y` answer; an abort carries the gathering error or the end of input |
| Interactive.StepTitle | interactive_bricks.py:174 | the title is "Final Assembly" exactly when there are not several images |
| Interactive.StepTitleNumber | interactive_bricks.py:174 | with several images, title `i` reads back as step number `i + 1` |
| Interactive.PresentSteps | interactive_bricks.py:171-181 | one presentation per image, in order, with that image |
| Interactive.RenderFromDataFile | interactive_bricks.py:164-181 | the data file is presented exactly when the renderer's shape matches `only_final`, as the presentations of the wrapped list; otherwise the loop raises |
| Interactive.FinalImagePresentation | interactive_bricks.py:166-181 | with `only_final`, the single final image is shown alone as "Final Assembly" and blocks, or is saved as `debug/step_0.png` |
| Interactive.PresentationsDistinct | interactive_bricks.py:173-181 | different steps get different titles or save paths, and only the last display blocks |
| Interactive.MenuContinues | interactive_bricks.py:284-291 | the menu asks to stop exactly when the stripped choice is `6` |
| Render.DebugImageOf | render_bricks.py:52-54 | `debug/<stem>.png` lies directly in `debug/`, is named `<stem>.png`, and splits off `.png` |
| Render.SingleBrickPathShape | render_bricks.py:48-55 | a given output is used unchanged; otherwise the image is `brick_<type>.png` in `debug/` |
| Render.SingleBrickPathsDistinct | render_bricks.py:52 | different brick types get different default paths |
| Render.FileStem | render_bricks.py:105 | the stem of the file name has no slash |
| Render.FileStemOfName | render_bricks.py:105 | the file name is its stem followed by nothing or by one extension, and a stem followed by an extension is not all dots |
| Render.AssemblyImagePathShape | render_bricks.py:101-109 | without an output, a saved assembly is rendered to `<stem>_rendered.png` in `debug/` |
| Render.AssemblyImagePathsDistinct | render_bricks.py:105-106 | assembly files with different stems get different default image paths |
| Render.StepMarker | render_bricks.py:80 | the `_step_<i>` marker holds neither dot nor slash |
| Render.StepMarkerInjective | render_bricks.py:80 | different steps get different markers |
| Render.StepPathsDistinct | render_bricks.py:72-88 | within one rendering, no two steps are saved to the same path |
| Render.StepPathKeepsExtension | render_bricks.py:76-80 | with an output and a count other than one, step `i` splits into the output's root + `_step_<i>` and the output's own extension |
| Render.DefaultStepPathShape | render_bricks.py:83-87 | without an output, step `i` is `<stem>_step_<i>.png` in `debug/`, from the record's file stem |
| Render.SaveSteps | render_bricks.py:72-88 | one save per image, in order, with that image |
| Render.SaveStepsDistinct | render_bricks.py:72-88 | no saved image overwrites another |
| Render.FinalOnlySavesOnce | render_bricks.py:72-87 | a single image is saved once: to the output unchanged if one is given, else as step 0 in `debug/` |
| Render.SourceOf | render_bricks.py:152-168 | first match wins among brick type, record and saved assembly, and the chosen input carries that flag's value; with none of them, brick `3001` |
| Render.RunRender | render_bricks.py:137-184 | exits with status 1 exactly when the selected file is missing; crashes exactly when the file exists (or a brick is named) and rendering fails: an unknown brick type; a record that fails to load, renders a shape that does not match `--only_final`, or renders no image; a saved assembly that fails to load; a rendered brick or assembly is saved once to its path; a rendered record saves exactly its wrapped image list at the step paths and `--show` displays its first image; the saves have distinct paths |
| Render.RenderCrashError | render_bricks.py:137-168 | a crash carries the failing renderer's own error, the shape error for a record result that does not match `--only_final`, or the empty-image error for a record that renders nothing |
| Render.FinalRecordRun | render_bricks.py:60-75 | a record rendered with `--only_final` to a single image and with an output saves that image once, to that output |
| Render.RenderCustomBricks | render_bricks.py:114-123 | the rendered bricks are exactly the zipped triples, as many as the shortest list |
| Render.CustomBricksPathShape | render_bricks.py:129 | the default custom-bricks image is `custom_bricks.png` in `debug/` |

## Left out

- File writes, `os.makedirs`, printing, trimesh concatenation and export: I/O and a foreign library. A write is modelled as a `FileWrite` or a (path, image) pair.
- Mesh synthesis, quaternion rotation, highlighting and camera framing: that code lives in `bricks.*` and `debug.utils`, which are not part of this model. In `render_bricks.py`, `visualize_*`, `render_dict_simple` and `load_bricks_pc` are parameters that may fail, as are `load_bricks_pc` and `dict_to_cbrick` in the exporter. `brick2mesh` is taken to be total: a mesh is the value `Mesh(brick, colour)`, and a failure inside mesh building is not modelled.
- `float()` and `int()`: abstract partial parsers. Coordinates are reals and no floating-point arithmetic is modelled.
- The `Brick` constructor is taken to be total. Whatever it checks about positions and rotations is not visible here.
- Export.CustomAssemblyWrites: with `--with_colors`, the bricks' meshes get random colours (export_to_blender.py:353-356); the model writes them uncoloured, because the draw is nondeterministic, so "exactly the meshes" holds up to those colours.
- Export.RunExport: with `--with_colors`, the custom-assembly branch draws random colours (export_to_blender.py:353-356). The model gives those meshes no colour, because the draw is nondeterministic.
- The body of the Blender import script (export_to_blender.py:214-291) is a fixed text template for an external tool. Only its path is modelled.
- `str.lower()` is modelled for ASCII letters only. This is exact for the `done` sentinel and for ASCII extensions. It differs from Python for non-ASCII extension letters.
- argparse itself is left out. The `choices` restriction on `--format` is not enforced: any non-empty flag is taken as given.
- `sys.exit` is the `Exit(1)` outcome. An uncaught exception is the `Crash` outcome, with the `Error` that caused it.
- In the interactive menu, options 1, 2, 4 and 5 only prompt and call the renderer. The model covers the returned continue/exit answer and option 3's parsing. `explore_brick_types`, `render_interactive`, the `y/n` prompts' effects, KeyboardInterrupt handling and the interactive script's own `main` are UI code.
- Interactive.RenderFromDataFile: with `only_final` and display on, a list from the renderer is handed whole to `render_interactive`, which is not part of this model; the model takes it to raise, as the saving branch does (a single image without `only_final` raises at `len` in both branches).
- Interactive.AssemblySession: `Rendered` means the gathered assembly is handed to `create_custom_assembly` (interactive_bricks.py:252). Its call to `visualize_bricks` (interactive_bricks.py:104) can raise, for instance on a typed unknown brick type, and the menu loop catches that (interactive_bricks.py:343); that renderer failure is not modelled, so `Rendered` does not promise an image was produced.
- `input()` is modelled as a finite sequence of lines. When the lines run out, the result is the `EndOfInput` error, which is what `EOFError` would do.
- matplotlib display in `render_bricks.py` `main` is modelled only as which image `--show` selects.
- `--highlight` changes only the pictures, so it is not modelled.
- Render.RenderCustomBricks is not called by `main`. It is modelled only for its brick list and its default path.

=== FILE: bricks.dfy ===
/**
 * The symbolic brick record shared by the three front ends, and the numeric-token
 * parsing they do before building one. Coordinates are reals obtained only through an
 * abstract `float()`; no arithmetic is done on them here.
 */
module Bricks {
  import opened Wrappers
  import opened Text

  type BrickType = string

  /** A position (x, y, z) or a quaternion (w, x, y, z), as parsed; the arity is not checked here. */
  type Coords = seq<real>

  /** An RGB triple (0-255), kept as the list the input gave. */
  type Color = seq<int>

  const IdentityRotation: Coords := [1.0, 0.0, 0.0, 0.0]
  const Origin: Coords := [0.0, 0.0, 0.0]

  /** One placed brick: `Brick(brick_type, position, rotation)`. */
  datatype Brick = Brick(brickType: BrickType, position: Coords, rotation: Coords)

  /** The errors the front ends raise or report. */
  datatype Error =
    | MissingField(field: string)     // a `KeyError` on the named JSON key
    | BadStepKey(key: string)         // `int(i_str)` rejected a step key
    | BadNumber(token: string)        // `float(token)` rejected a token
    | CompositeRejected               // `dict_to_cbrick` rejected a composite entry
    | LoadFailed(path: string)        // opening or decoding an input file failed
    | UnknownBrick(brickType: string) // the renderer has no model of the brick type
    | EndOfInput                      // `input()` reached the end of its stream
    | NoImages                        // `images[0]` on an empty image list
    | NotAnImage                      // `len`, iteration or `save` on a value of the wrong shape

  /** The length of `zip` over two lists: the shorter one's. */
  function Min(a: int, b: int): int {
    if a <= b then a else b
  }

  /** Python's `zip(types, positions, rotations)` turned into bricks. */
  function Zip3(types: seq<BrickType>, positions: seq<Coords>, rotations: seq<Coords>): (r: seq<Brick>)
    ensures |r| == Min(Min(|types|, |positions|), |rotations|)
    ensures forall i :: 0 <= i < |r| ==> r[i] == Brick(types[i], positions[i], rotations[i])
  {
    if |types| == 0 || |positions| == 0 || |rotations| == 0 then []
    else [Brick(types[0], positions[0], rotations[0])] + Zip3(types[1..], positions[1..], rotations[1..])
  }

  /** `tuple(map(float, tokens))`: every token parsed in order; the first token `float`
      rejects raises, and nothing is produced. */
  function ParseNumbers(tokens: seq<string>, parseFloat: string -> Option<real>): (r: Result<Coords, Error>)
    ensures r.Success? <==> forall i :: 0 <= i < |tokens| ==> parseFloat(tokens[i]).Some?
    ensures r.Success? ==> |r.value| == |tokens|
    ensures r.Success? ==> forall i :: 0 <= i < |tokens| ==> r.value[i] == parseFloat(tokens[i]).value
    ensures r.Failure? ==>
              exists i :: (0 <= i < |tokens| && parseFloat(tokens[i]).None? && r.error == BadNumber(tokens[i])
                           && forall k :: 0 <= k < i ==> parseFloat(tokens[k]).Some?)
  {
    if |tokens| == 0 then Success([])
    else match parseFloat(tokens[0])
      case None => Failure(BadNumber(tokens[0]))
      case Some(x) =>
        var rest :- ParseNumbers(tokens[1..], parseFloat);
        Success([x] + rest)
  }

  /** `tuple(map(float, s.split(',')))`, as the command line reads `"x,y,z"` and `"w,x,y,z"`. */
  function ParseTuple(s: string, parseFloat: string -> Option<real>): (r: Result<Coords, Error>)
    ensures r.Success? <==> forall i :: 0 <= i < |SplitOn(s, ',')| ==> parseFloat(SplitOn(s, ',')[i]).Some?
    ensures r.Success? ==> |r.value| == |SplitOn(s, ',')|
    ensures r.Success? ==> forall i :: 0 <= i < |SplitOn(s, ',')| ==> r.value[i] == parseFloat(SplitOn(s, ',')[i]).value
  {
    var parts := SplitOn(s, ',');
    assert parts == SplitOn(s, ',');
    ParseNumbers(parts, parseFloat)
  }

  /** What `render_dict_simple` returns: one image (meant for `only_final`), or one per step. */
  datatype Rendered<I> = Single(image: I) | PerStep(images: seq<I>)

  /** The image list the callers iterate over after `if only_final: images = [images]`: the
      flag, not the renderer, decides the wrapping. A result of the other shape leaves the
      callers no list of images: a list wrapped once more has no `save`, and a bare image has
      no `len` and cannot be enumerated, so the script raises. */
  function ImageList<I>(r: Rendered<I>, onlyFinal: bool): (images: Result<seq<I>, Error>)
    ensures images.Success? <==> (r.Single? <==> onlyFinal)
    ensures images.Failure? ==> images.error == NotAnImage
    ensures images.Success? ==> |images.value| == (if onlyFinal then 1 else |r.images|)
    ensures images.Success? && onlyFinal ==> images.value == [r.image]
    ensures images.Success? && !onlyFinal ==> images.value == r.images
  {
    if onlyFinal then
      if r.Single? then Success([r.image]) else Failure(NotAnImage)
    else
      if r.PerStep? then Success(r.images) else Failure(NotAnImage)
  }
}

=== FILE: export.dfy ===
/**
 * The export front end (export_to_blender.py): flattening a construction record into
 * a brick list with a parallel colour list, pairing bricks with colours for meshing,
 * resolving the output format and path, naming per-brick files, and the `main` dispatch.
 * Meshes stand for `brick2mesh(brick, color)`; their geometry is not modelled.
 */
module Export {
  import opened Wrappers
  import opened Text
  import opened Paths
  import opened Bricks

  /** The JSON fields of a composite entry that only `dict_to_cbrick` interprets. */
  type CompositeFields

  datatype Transform = Transform(rotation: Option<Coords>, position: Option<Coords>)

  /** One element of a step's `bricks` list; an absent `brickType` marks a composite brick. */
  datatype Entry = Entry(
    brickType: Option<BrickType>,
    transform: Option<Transform>,
    color: Option<Color>,
    fields: CompositeFields)

  /** One value of the `operations` object; `bricks` may be missing from the file. */
  datatype Step = Step(bricks: Option<seq<Entry>>)

  /** A construction record: its `operations` object as (key, step) pairs in file order. */
  datatype Record = Record(operations: Option<seq<(string, Step)>>)

  /** The collaborators the export front end calls, which are not part of this model. */
  datatype Env = Env(
    parseFloat: string -> Option<real>,                 // float(token)
    parseInt: string -> Option<int>,                    // int(key)
    expand: Entry -> Result<seq<Brick>, Error>,         // dict_to_cbrick(entry).bricks
    loadRecord: string -> Result<Record, Error>,        // json.load(open(path))
    loadAssembly: string -> Result<seq<Brick>, Error>)  // get_elements(load_bricks_pc(path).bricks)

  /** The mesh `brick2mesh(brick, color)` builds, identified by its inputs. */
  datatype Mesh = Mesh(brick: Brick, color: Option<Color>)

  const Red: Color := [255, 0, 0]

  // ---------------------------------------------------------------- meshing

  /** `export_bricks_to_mesh`: one mesh per brick, in order; brick `i` is coloured with
      `colors[i]` when the colour list is present, non-empty and long enough, else uncoloured. */
  method BricksToMeshes(bricks: seq<Brick>, colors: Option<seq<Option<Color>>>) returns (meshes: seq<Mesh>)
    ensures |meshes| == |bricks|
    ensures forall i :: 0 <= i < |bricks| ==> meshes[i].brick == bricks[i]
    ensures forall i :: 0 <= i < |bricks| ==>
              meshes[i].color == (if colors.Some? && |colors.value| > 0 && i < |colors.value| then colors.value[i] else None)
  {
    meshes := [];
    for i := 0 to |bricks|
      invariant |meshes| == i
      invariant forall k :: 0 <= k < i ==> meshes[k].brick == bricks[k]
      invariant forall k :: 0 <= k < i ==>
                  meshes[k].color == (if colors.Some? && |colors.value| > 0 && k < |colors.value| then colors.value[k] else None)
    {
      var color := if colors.Some? && |colors.value| > 0 && i < |colors.value| then colors.value[i] else None;
      meshes := meshes + [Mesh(bricks[i], color)];
    }
  }

  // ---------------------------------------------------------------- flattening

  /** Bricks and their colours, kept in two parallel lists as the source keeps them. */
  datatype Flat = Flat(bricks: seq<Brick>, colors: seq<Option<Color>>)

  const NoBricks := Flat([], [])

  function Append(a: Flat, b: Flat): Flat {
    Flat(a.bricks + b.bricks, a.colors + b.colors)
  }

  /** `n` copies of `x`: the colour list an entry adds next to its `n` bricks. */
  function Repeat<T>(x: T, n: nat): (r: seq<T>)
    ensures |r| == n && forall i :: 0 <= i < n ==> r[i] == x
  {
    seq(n, _ => x)
  }

  /** The colour recorded for every brick an entry contributes. */
  function EntryColor(e: Entry, withColors: bool): (c: Option<Color>)
    ensures c.Some? <==> withColors && e.color.Some?
    ensures c.Some? ==> c == e.color
  {
    if withColors && e.color.Some? then e.color else None
  }

  /** The bricks one entry contributes. The transform's rotation and position are read
      first, for plain and composite entries alike; then a plain entry is one brick and a
      composite entry is whatever `dict_to_cbrick` expands it to. */
  function EntryBricks(e: Entry, expand: Entry -> Result<seq<Brick>, Error>): (r: Result<seq<Brick>, Error>)
    ensures r.Success? ==> e.transform.Some? && e.transform.value.rotation.Some? && e.transform.value.position.Some?
    ensures r.Success? && e.brickType.Some? ==>
              r.value == [Brick(e.brickType.value, e.transform.value.position.value, e.transform.value.rotation.value)]
    ensures e.brickType.None? && e.transform.Some? && e.transform.value.rotation.Some? && e.transform.value.position.Some? ==>
              r == expand(e)
  {
    match e.transform
    case None => Failure(MissingField("brick_transform"))
    case Some(t) =>
      if t.rotation.None? then Failure(MissingField("rotation"))
      else if t.position.None? then Failure(MissingField("position"))
      else if e.brickType.Some? then Success([Brick(e.brickType.value, t.position.value, t.rotation.value)])
      else expand(e)
  }

  /** The inner loop of `export_from_json` over one step's entries. */
  function FlattenEntries(es: seq<Entry>, withColors: bool, expand: Entry -> Result<seq<Brick>, Error>): (r: Result<Flat, Error>)
    ensures r.Success? ==> |r.value.bricks| == |r.value.colors|
    ensures r.Success? && !withColors ==> forall i :: 0 <= i < |r.value.colors| ==> r.value.colors[i].None?
  {
    if |es| == 0 then Success(NoBricks)
    else
      var bs :- EntryBricks(es[0], expand);
      var rest :- FlattenEntries(es[1..], withColors, expand);
      Success(Append(Flat(bs, Repeat(EntryColor(es[0], withColors), |bs|)), rest))
  }

  /** Whether a step contributes: always in all-steps mode; with `only_final`, exactly when
      its key parses as an integer equal to the number of steps minus one. */
  function StepSelected(key: string, total: int, onlyFinal: bool, parseInt: string -> Option<int>): Result<bool, Error> {
    if !onlyFinal then Success(true)
    else match parseInt(key)
      case None => Failure(BadStepKey(key))
      case Some(k) => Success(k == total - 1)
  }

  function StepBricks(step: Step, withColors: bool, expand: Entry -> Result<seq<Brick>, Error>): (r: Result<Flat, Error>)
    ensures r.Success? ==> |r.value.bricks| == |r.value.colors|
    ensures r.Success? && !withColors ==> forall i :: 0 <= i < |r.value.colors| ==> r.value.colors[i].None?
  {
    match step.bricks
    case None => Failure(MissingField("bricks"))
    case Some(es) => FlattenEntries(es, withColors, expand)
  }

  /** The outer loop of `export_from_json` over the record's steps, in file order. */
  function FlattenSteps(ops: seq<(string, Step)>, total: int, onlyFinal: bool, withColors: bool, env: Env): (r: Result<Flat, Error>)
    ensures r.Success? ==> |r.value.bricks| == |r.value.colors|
    ensures r.Success? && !withColors ==> forall i :: 0 <= i < |r.value.colors| ==> r.value.colors[i].None?
  {
    if |ops| == 0 then Success(NoBricks)
    else
      var selected :- StepSelected(ops[0].0, total, onlyFinal, env.parseInt);
      var here :- if selected then StepBricks(ops[0].1, withColors, env.expand) else Success(NoBricks);
      var rest :- FlattenSteps(ops[1..], total, onlyFinal, withColors, env);
      Success(Append(here, rest))
  }

  /** The bricks and colours `export_from_json` collects from a record. */
  function FlattenRecord(record: Record, onlyFinal: bool, withColors: bool, env: Env): (r: Result<Flat, Error>)
    ensures r.Success? ==> |r.value.bricks| == |r.value.colors|
  {
    match record.operations
    case None => Failure(MissingField("operations"))
    case Some(ops) => FlattenSteps(ops, |ops|, onlyFinal, withColors, env)
  }

  /** The steps whose key parses to `total - 1`, in order. */
  function FinalSteps(ops: seq<(string, Step)>, total: int, parseInt: string -> Option<int>): seq<(string, Step)> {
    if |ops| == 0 then []
    else (if parseInt(ops[0].0) == Some(total - 1) then [ops[0]] else []) + FinalSteps(ops[1..], total, parseInt)
  }

  /** With `only_final` and integer keys, the result is the all-steps flattening of just the
      final-keyed steps: every other step is skipped, even one with no `bricks`. */
  lemma {:induction false} OnlyFinalKeepsFinalSteps(ops: seq<(string, Step)>, total: int, withColors: bool, env: Env)
    requires forall i :: 0 <= i < |ops| ==> env.parseInt(ops[i].0).Some?
    ensures FlattenSteps(ops, total, true, withColors, env)
         == FlattenSteps(FinalSteps(ops, total, env.parseInt), total, false, withColors, env)
  {
    if |ops| > 0 {
      var tail := ops[1..];
      assert forall i :: 0 <= i < |tail| ==> env.parseInt(tail[i].0).Some? by {
        forall i | 0 <= i < |tail| ensures env.parseInt(tail[i].0).Some? { assert tail[i] == ops[i + 1]; }
      }
      OnlyFinalKeepsFinalSteps(tail, total, withColors, env);
      var fs := FinalSteps(ops, total, env.parseInt);
      if env.parseInt(ops[0].0) == Some(total - 1) {
        assert fs == [ops[0]] + FinalSteps(tail, total, env.parseInt);
        assert fs[1..] == FinalSteps(tail, total, env.parseInt);
      } else {
        assert fs == FinalSteps(tail, total, env.parseInt);
        AppendNoBricks(FlattenSteps(tail, total, true, withColors, env));
      }
    }
  }

  lemma AppendNoBricks(r: Result<Flat, Error>)
    ensures r.Success? ==> Append(NoBricks, r.value) == r.value
  {
    if r.Success? {
      assert NoBricks.bricks + r.value.bricks == r.value.bricks;
      assert NoBricks.colors + r.value.colors == r.value.colors;
    }
  }

  /** With `only_final`, a step key `int()` rejects aborts the export, wherever it stands
      after the steps that went through. */
  lemma {:induction false} BadStepKeyAborts(pre: seq<(string, Step)>, key: string, step: Step, post: seq<(string, Step)>,
                                            total: int, withColors: bool, env: Env)
    requires FlattenSteps(pre, total, true, withColors, env).Success?
    requires env.parseInt(key).None?
    ensures FlattenSteps(pre + [(key, step)] + post, total, true, withColors, env) == Failure(BadStepKey(key))
  {
    var ops := pre + [(key, step)] + post;
    if |pre| == 0 {
      assert ops[0] == (key, step);
    } else {
      assert ops[0] == pre[0];
      assert ops[1..] == pre[1..] + [(key, step)] + post;
      BadStepKeyAborts(pre[1..], key, step, post, total, withColors, env);
    }
  }

  /** Entries are flattened in order: the flattening of a concatenation is the concatenation
      of the flattenings, and the first failure wins. */
  lemma {:induction false} FlattenEntriesAppend(a: seq<Entry>, b: seq<Entry>, withColors: bool, expand: Entry -> Result<seq<Brick>, Error>)
    ensures FlattenEntries(a, withColors, expand).Failure? ==>
              FlattenEntries(a + b, withColors, expand) == FlattenEntries(a, withColors, expand)
    ensures FlattenEntries(a, withColors, expand).Success? && FlattenEntries(b, withColors, expand).Success? ==>
              FlattenEntries(a + b, withColors, expand)
              == Success(Append(FlattenEntries(a, withColors, expand).value, FlattenEntries(b, withColors, expand).value))
    ensures FlattenEntries(a, withColors, expand).Success? && FlattenEntries(b, withColors, expand).Failure? ==>
              FlattenEntries(a + b, withColors, expand) == FlattenEntries(b, withColors, expand)
  {
    var ab := a + b;
    if |a| == 0 {
      assert ab == b;
      AppendNoBricks(FlattenEntries(b, withColors, expand));
    } else {
      var e := a[0];
      assert ab[0] == e;
      assert ab[1..] == a[1..] + b;
      FlattenEntriesAppend(a[1..], b, withColors, expand);
      var eb := EntryBricks(e, expand);
      if eb.Success? {
        var head := Flat(eb.value, Repeat(EntryColor(e, withColors), |eb.value|));
        var ra' := FlattenEntries(a[1..], withColors, expand);
        var rb := FlattenEntries(b, withColors, expand);
        var rab' := FlattenEntries(a[1..] + b, withColors, expand);
        if ra'.Success? {
          assert FlattenEntries(a, withColors, expand) == Success(Append(head, ra'.value));
          if rb.Success? {
            assert rab' == Success(Append(ra'.value, rb.value));
            assert FlattenEntries(ab, withColors, expand) == Success(Append(head, Append(ra'.value, rb.value)));
            AppendAssociative(head, ra'.value, rb.value);
          } else {
            assert FlattenEntries(ab, withColors, expand) == Failure(rb.error);
          }
        } else {
          assert FlattenEntries(a, withColors, expand) == Failure(ra'.error);
          assert FlattenEntries(ab, withColors, expand) == Failure(ra'.error);
        }
      } else {
        assert FlattenEntries(ab, withColors, expand) == Failure(eb.error);
      }
    }
  }

  lemma AppendAssociative(x: Flat, y: Flat, z: Flat)
    ensures Append(x, Append(y, z)) == Append(Append(x, y), z)
  {
    assert x.bricks + (y.bricks + z.bricks) == (x.bricks + y.bricks) + z.bricks;
    assert x.colors + (y.colors + z.colors) == (x.colors + y.colors) + z.colors;
  }

  /** An entry naming a brick type contributes exactly that brick, with its colour when
      colours are requested and present. */
  lemma PlainEntryContributesOneBrick(e: Entry, withColors: bool, expand: Entry -> Result<seq<Brick>, Error>)
    requires e.brickType.Some? && e.transform.Some?
    requires e.transform.value.rotation.Some? && e.transform.value.position.Some?
    ensures FlattenEntries([e], withColors, expand)
         == Success(Flat([Brick(e.brickType.value, e.transform.value.position.value, e.transform.value.rotation.value)],
                         [if withColors && e.color.Some? then e.color else None]))
  {
    assert [e][1..] == [];
    var b := Brick(e.brickType.value, e.transform.value.position.value, e.transform.value.rotation.value);
    assert EntryBricks(e, expand) == Success([b]);
    assert Repeat(EntryColor(e, withColors), 1) == [EntryColor(e, withColors)];
    assert Append(Flat([b], [EntryColor(e, withColors)]), NoBricks) == Flat([b], [EntryColor(e, withColors)]);
  }

  /** A composite entry contributes all the bricks it expands to, in order, each carrying
      the entry's colour (or none). */
  lemma CompositeEntryContributesParts(e: Entry, withColors: bool, expand: Entry -> Result<seq<Brick>, Error>, parts: seq<Brick>)
    requires e.brickType.None? && e.transform.Some?
    requires e.transform.value.rotation.Some? && e.transform.value.position.Some?
    requires expand(e) == Success(parts)
    ensures var r := FlattenEntries([e], withColors, expand);
            && r.Success? && r.value.bricks == parts && |r.value.colors| == |parts|
            && forall i :: 0 <= i < |parts| ==> r.value.colors[i] == (if withColors && e.color.Some? then e.color else None)
  {
    assert [e][1..] == [];
    var colors := Repeat(EntryColor(e, withColors), |parts|);
    assert parts + [] == parts;
    assert colors + [] == colors;
  }

  /** A missing transform field aborts the step whatever kind of entry it is. */
  lemma MissingTransformAborts(e: Entry, rest: seq<Entry>, withColors: bool, expand: Entry -> Result<seq<Brick>, Error>)
    requires e.transform.None? || e.transform.value.rotation.None? || e.transform.value.position.None?
    ensures FlattenEntries([e] + rest, withColors, expand).Failure?
  {
    assert ([e] + rest)[0] == e;
  }

  // ---------------------------------------------------------------- formats and paths

  datatype FileType = Obj | Ply | Stl | Glb | AutoDetect

  /** The trimesh file type `export_to_file` writes for a format name. */
  function FileTypeFor(format: string): FileType {
    if format == "obj" then Obj
    else if format == "ply" then Ply
    else if format == "stl" then Stl
    else if format == "glb" || format == "gltf" then Glb
    else AutoDetect
  }

  /** Each format the command line offers selects its own writer, and `gltf` is written as
      binary glTF; any other name is left to trimesh's detection. */
  lemma FileTypeForChoices()
    ensures FileTypeFor("obj") == Obj && FileTypeFor("ply") == Ply && FileTypeFor("stl") == Stl
    ensures FileTypeFor("glb") == Glb && FileTypeFor("gltf") == Glb
    ensures forall f :: f !in {"obj", "ply", "stl", "glb", "gltf"} ==> FileTypeFor(f) == AutoDetect
  {
  }

  /** A usable format name: non-empty, with neither a dot nor a slash. */
  predicate IsFormatName(f: string) {
    f != "" && ExtSep !in f && PathSep !in f
  }

  /** The format inferred from a path: its extension without the dot, lower-cased. */
  function InferFormat(path: string): (f: string)
    ensures f == "" || IsFormatName(f)
  {
    var e := Splitext(path).ext;
    var name := if e == "" then "" else e[1..];
    LowerKeepsSeparators(name);
    Lower(name)
  }

  lemma LowerKeepsSeparators(s: string)
    requires ExtSep !in s && PathSep !in s
    ensures ExtSep !in Lower(s) && PathSep !in Lower(s)
  {
    forall k | 0 <= k < |s| ensures Lower(s)[k] != ExtSep && Lower(s)[k] != PathSep {
      assert Lower(s)[k] == LowerChar(s[k]);
    }
  }

  /** A path built from a stem-bearing root, a dot and a format name infers that format. */
  lemma InferFormatOfJoin(root: string, f: string)
    requires IsFormatName(f) && HasStem(root)
    ensures InferFormat(root + "." + f) == Lower(f)
  {
    var e := "." + f;
    assert e[1..] == f;
    assert root + "." + f == root + e;
    SplitextOfJoin(root, e);
    assert Splitext(root + "." + f).ext == e;
  }

  /** `export_to_file`: the explicit format, or the one inferred from the path. */
  datatype FileWrite = FileWrite(path: string, format: string, fileType: FileType, meshes: seq<Mesh>)

  function ExportToFile(meshes: seq<Mesh>, path: string, format: Option<string>): (w: FileWrite)
    ensures w.path == path && w.meshes == meshes
    ensures format.Some? ==> w.format == format.value
    ensures format.None? ==> w.format == InferFormat(path)
    ensures w.fileType == FileTypeFor(w.format)
  {
    var f := if format.Some? then format.value else InferFormat(path);
    FileWrite(path, f, FileTypeFor(f), meshes)
  }

  /** The format used when neither the flag nor the output's extension gives one. */
  const DefaultFormat: string := "obj"

  /** The output format `main` settles on: the `--format` flag, else the output's extension
      lower-cased, else `obj`. */
  function ResolveFormat(flag: Option<string>, output: string): (f: string)
    ensures f != ""
    ensures Truthy(flag) ==> f == flag.value
    ensures !Truthy(flag) ==> IsFormatName(f) && Lower(f) == f
    ensures !Truthy(flag) && |Splitext(output).ext| <= 1 ==> f == DefaultFormat
    ensures !Truthy(flag) && |Splitext(output).ext| > 1 ==> f == Lower(Splitext(output).ext[1..])
  {
    if Truthy(flag) then flag.value else OutputFormat(output)
  }

  /** The fallbacks after the flag: the inferred format when the output is non-empty and
      has one, else the default. */
  function OutputFormat(output: string): (f: string)
    ensures IsFormatName(f) && Lower(f) == f
    ensures |Splitext(output).ext| <= 1 ==> f == DefaultFormat
    ensures |Splitext(output).ext| > 1 ==> f == Lower(Splitext(output).ext[1..])
  {
    var inferred := if output != "" then Some(InferFormat(output)) else None;
    InferredFormatIsLower(output);
    if Truthy(inferred) then
      inferred.value
    else
      DefaultFormatIsLower();
      DefaultFormat
  }

  lemma DefaultFormatIsLower()
    ensures IsFormatName(DefaultFormat) && Lower(DefaultFormat) == DefaultFormat
  {
    var o := DefaultFormat;
    assert ExtSep !in o && PathSep !in o;
    assert forall k :: 0 <= k < |o| ==> LowerChar(o[k]) == o[k];
  }

  lemma InferredFormatIsLower(output: string)
    ensures Lower(InferFormat(output)) == InferFormat(output)
    ensures |Splitext(output).ext| <= 1 ==> InferFormat(output) == ""
    ensures |Splitext(output).ext| > 1 ==> InferFormat(output) == Lower(Splitext(output).ext[1..])
    ensures |Splitext(output).ext| > 1 ==> output != "" && InferFormat(output) != ""
    ensures output == "" ==> InferFormat(output) == ""
  {
    var e := Splitext(output).ext;
    LowerIdempotent(if e == "" then "" else e[1..]);
  }

  /** Appending `.format` unless the output already ends with it (a case-sensitive test). */
  function EnsureExtension(output: string, format: string): (out: string)
    ensures EndsWith(out, "." + format)
    ensures |output| <= |out| && out[..|output|] == output
    ensures EndsWith(output, "." + format) ==> out == output
    ensures out == output || out == output + "." + format
  {
    if EndsWith(output, "." + format) then output else output + "." + format
  }

  /** Ensuring the extension a second time changes nothing. */
  lemma EnsureExtensionIdempotent(output: string, format: string)
    ensures EnsureExtension(EnsureExtension(output, format), format) == EnsureExtension(output, format)
  {
  }

  /** Inference lower-cases but the suffix test does not: an output whose extension has
      upper-case letters (`m.OBJ`) gets the lower-cased one appended after it (`m.OBJ.obj`). */
  lemma UpperCaseExtensionIsDoubled(root: string, e: string)
    requires IsFormatName(e) && HasStem(root) && Lower(e) != e
    ensures EnsureExtension(root + "." + e, ResolveFormat(None, root + "." + e)) == root + "." + e + "." + Lower(e)
  {
    var p := root + "." + e;
    var ext := "." + e;
    assert ext[1..] == e;
    assert p == root + ext;
    SplitextOfJoin(root, ext);
    assert Splitext(p).ext == ext;
    assert ResolveFormat(None, p) == Lower(e);
    assert p[|p| - |ext|..] == ext;
    assert ext != "." + Lower(e) by {
      assert ("." + Lower(e))[1..] == Lower(e);
    }
  }

  /** The output path after `main` has resolved the format and appended the extension. */
  function FinalOutput(output: string, flag: Option<string>): string {
    EnsureExtension(output, ResolveFormat(flag, output))
  }

  /** When the final output's name has a stem before `.format`, `splitext` gives that format
      back, so the format `export_from_json` infers is the resolved one (lower-cased). */
  lemma FinalOutputSplits(output: string, flag: Option<string>)
    requires IsFormatName(ResolveFormat(flag, output))
    requires var f := ResolveFormat(flag, output); var out := FinalOutput(output, flag);
             HasStem(out[..|out| - |f| - 1])
    ensures var f := ResolveFormat(flag, output); var out := FinalOutput(output, flag);
            Splitext(out) == Split(out[..|out| - |f| - 1], "." + f)
            && InferFormat(out) == Lower(f)
  {
    var f := ResolveFormat(flag, output);
    var out := FinalOutput(output, flag);
    var root := out[..|out| - |f| - 1];
    assert out == root + ("." + f);
    assert IsExtension("." + f) by { assert ("." + f)[1..] == f; }
    SplitextOfJoin(root, "." + f);
    InferFormatOfJoin(root, f);
  }

  /** The file written for mesh `i` with `--separate`: stem, `_`, `i` zero-padded to three
      digits, extension. */
  function SeparateFileName(output: string, i: nat): string {
    var s := Splitext(output);
    s.root + IndexMarker(i) + s.ext
  }

  /** `_<i:03d>`, the marker a mesh index adds to a path: neither a dot nor a slash in it. */
  function IndexMarker(i: nat): (m: string)
    ensures |m| > 0 && ExtSep !in m && PathSep !in m
  {
    var d := PaddedDecimal(i, 3);
    assert forall k :: 0 <= k < |d| ==> IsDigit(d[k]);
    assert ExtSep !in d && PathSep !in d;
    "_" + d
  }

  /** Different indices give different markers. */
  lemma IndexMarkerInjective(i: nat, j: nat)
    requires i != j
    ensures IndexMarker(i) != IndexMarker(j)
  {
    var d, e := PaddedDecimal(i, 3), PaddedDecimal(j, 3);
    assert DigitsValue(d) != DigitsValue(e);
    assert IndexMarker(i)[1..] == d && IndexMarker(j)[1..] == e;
  }

  /** Per-mesh file names never collide. */
  lemma SeparateFileNamesDistinct(output: string, i: nat, j: nat)
    requires i != j
    ensures SeparateFileName(output, i) != SeparateFileName(output, j)
  {
    var s := Splitext(output);
    IndexMarkerInjective(i, j);
    InfixDistinct(s.root, IndexMarker(i), IndexMarker(j), s.ext);
  }

  /** Each per-mesh file keeps the output's extension as `splitext` sees it, and the root it
      adds to is the output's root. */
  lemma SeparateFileNameKeepsExtension(output: string, i: nat)
    ensures Splitext(SeparateFileName(output, i)) == Split(Splitext(output).root + IndexMarker(i), Splitext(output).ext)
    ensures EndsWith(SeparateFileName(output, i), Splitext(output).ext)
  {
    SplitextOfInsert(output, IndexMarker(i));
  }

  /** The companion script is written beside the output as a Python file. */
  function BlenderScriptPath(output: string): string {
    Splitext(output).root + ScriptSuffix + PyExt
  }

  const ScriptSuffix: string := "_blender_import"
  const PyExt: string := ".py"

  lemma BlenderScriptIsPython(output: string)
    ensures Splitext(BlenderScriptPath(output)) == Split(Splitext(output).root + ScriptSuffix, PyExt)
  {
    assert ScriptSuffix[0] != ExtSep && PathSep !in ScriptSuffix;
    assert IsExtension(PyExt);
    SplitextOfFile(Splitext(output).root, ScriptSuffix, PyExt);
  }

  // ---------------------------------------------------------------- custom assembly from flags

  /** The rotation brick `i` gets from `--rotations`: parsed when the list is given and long
      enough, identity otherwise. */
  function FlagRotation(rotations: Option<seq<string>>, i: nat, parseFloat: string -> Option<real>): (r: Result<Coords, Error>)
    ensures r.Failure? ==> rotations.Some? && i < |rotations.value|
    ensures rotations.Some? && i < |rotations.value| ==> r == ParseTuple(rotations.value[i], parseFloat)
    ensures r.Success? && (rotations.None? || i >= |rotations.value|) ==> r.value == IdentityRotation
  {
    if rotations.Some? && i < |rotations.value| then ParseTuple(rotations.value[i], parseFloat)
    else Success(IdentityRotation)
  }

  /** The bricks the flags describe: one per type while positions last, with the type, the
      parsed position and the parsed (or identity) rotation at that index. */
  predicate FlagBricks(bs: seq<Brick>, types: seq<BrickType>, positions: seq<string>, rotations: Option<seq<string>>,
                       parseFloat: string -> Option<real>)
  {
    && |bs| == Min(|types|, |positions|)
    && forall i :: 0 <= i < |bs| ==>
         && bs[i].brickType == types[i]
         && ParseTuple(positions[i], parseFloat) == Success(bs[i].position)
         && FlagRotation(rotations, i, parseFloat) == Success(bs[i].rotation)
  }

  /** Some position or rotation among the bricks that are built does not parse. */
  predicate FlagParseFails(types: seq<BrickType>, positions: seq<string>, rotations: Option<seq<string>>,
                           parseFloat: string -> Option<real>)
  {
    exists i :: 0 <= i < Min(|types|, |positions|) &&
                (ParseTuple(positions[i], parseFloat).Failure? || FlagRotation(rotations, i, parseFloat).Failure?)
  }

  /** The custom-assembly branch of `main`: bricks are built while positions last, each
      position parsed from `"x,y,z"`; an unparsable number aborts the run. */
  method CustomBricks(types: seq<BrickType>, positions: seq<string>, rotations: Option<seq<string>>,
                      parseFloat: string -> Option<real>)
    returns (r: Result<seq<Brick>, Error>)
    ensures r.Success? ==> FlagBricks(r.value, types, positions, rotations, parseFloat)
    ensures r.Failure? <==> FlagParseFails(types, positions, rotations, parseFloat)
  {
    var bricks: seq<Brick> := [];
    var i := 0;
    while i < |types|
      invariant i <= |types| && i <= |positions|
      invariant |bricks| == i
      invariant forall k :: 0 <= k < i ==>
                  && bricks[k].brickType == types[k]
                  && ParseTuple(positions[k], parseFloat) == Success(bricks[k].position)
                  && FlagRotation(rotations, k, parseFloat) == Success(bricks[k].rotation)
    {
      if i >= |positions| {
        break;
      }
      var pos := ParseTuple(positions[i], parseFloat);
      if pos.Failure? {
        return Failure(pos.error);
      }
      var rot := FlagRotation(rotations, i, parseFloat);
      if rot.Failure? {
        return Failure(rot.error);
      }
      bricks := bricks + [Brick(types[i], pos.value, rot.value)];
      i := i + 1;
    }
    return Success(bricks);
  }

  // ---------------------------------------------------------------- export_from_json

  /** The meshes of a flattened record: brick `i` with colour `i` when colours are requested. */
  predicate RecordMeshes(ms: seq<Mesh>, flat: Flat, withColors: bool)
    requires |flat.bricks| == |flat.colors|
  {
    && |ms| == |flat.bricks|
    && forall i :: 0 <= i < |flat.bricks| ==> ms[i] == Mesh(flat.bricks[i], if withColors then flat.colors[i] else None)
  }

  /** `export_from_json`: the flattened record meshed with its colours (when requested)
      and written, as one file, in the format inferred from the output path. */
  method ExportFromJson(jsonPath: string, outputPath: string, onlyFinal: bool, withColors: bool, env: Env)
    returns (r: Result<FileWrite, Error>)
    ensures r.Failure? <==>
              env.loadRecord(jsonPath).Failure?
              || FlattenRecord(env.loadRecord(jsonPath).value, onlyFinal, withColors, env).Failure?
    ensures r.Success? ==> r.value.path == outputPath && r.value.format == InferFormat(outputPath)
    ensures r.Success? ==>
              RecordMeshes(r.value.meshes, FlattenRecord(env.loadRecord(jsonPath).value, onlyFinal, withColors, env).value, withColors)
  {
    var loaded := env.loadRecord(jsonPath);
    if loaded.Failure? {
      return Failure(loaded.error);
    }
    var flat := FlattenRecord(loaded.value, onlyFinal, withColors, env);
    if flat.Failure? {
      return Failure(flat.error);
    }
    var meshes := BricksToMeshes(flat.value.bricks, if withColors then Some(flat.value.colors) else None);
    return Success(ExportToFile(meshes, outputPath, None));
  }

  // ---------------------------------------------------------------- main

  datatype ExportArgs = ExportArgs(
    brickType: Option<string>,
    brickTypes: Option<seq<string>>,
    positions: Option<seq<string>>,
    rotations: Option<seq<string>>,
    jsonPath: Option<string>,
    bricksPcPath: Option<string>,
    output: string,
    format: Option<string>,
    separate: bool,
    withColors: bool,
    onlyFinal: bool,
    blenderScript: bool)

  /** The input `main` acts on, first match wins: one brick type, a brick-type list, a
      construction record, a saved assembly. */
  datatype Route =
    | SingleBrick(brickType: BrickType)
    | CustomAssembly(types: seq<BrickType>)
    | FromRecord(path: string)
    | FromAssemblyFile(path: string)
    | NoRoute

  function RouteOf(args: ExportArgs): (rt: Route)
    ensures Truthy(args.brickType) ==> rt == SingleBrick(args.brickType.value)
    ensures !Truthy(args.brickType) && args.brickTypes.Some? && |args.brickTypes.value| > 0 ==>
              rt == CustomAssembly(args.brickTypes.value)
    ensures rt.FromRecord? <==>
              && !Truthy(args.brickType) && (args.brickTypes.None? || |args.brickTypes.value| == 0)
              && Truthy(args.jsonPath)
    ensures rt.FromRecord? ==> rt.path == args.jsonPath.value
    ensures rt.FromAssemblyFile? <==>
              && !Truthy(args.brickType) && (args.brickTypes.None? || |args.brickTypes.value| == 0)
              && !Truthy(args.jsonPath) && Truthy(args.bricksPcPath)
    ensures rt.FromAssemblyFile? ==> rt.path == args.bricksPcPath.value
    ensures rt.NoRoute? <==>
              && !Truthy(args.brickType) && (args.brickTypes.None? || |args.brickTypes.value| == 0)
              && !Truthy(args.jsonPath) && !Truthy(args.bricksPcPath)
  {
    if Truthy(args.brickType) then SingleBrick(args.brickType.value)
    else if args.brickTypes.Some? && |args.brickTypes.value| > 0 then CustomAssembly(args.brickTypes.value)
    else if Truthy(args.jsonPath) then FromRecord(args.jsonPath.value)
    else if Truthy(args.bricksPcPath) then FromAssemblyFile(args.bricksPcPath.value)
    else NoRoute
  }

  datatype ExportRun =
    | Exit(status: int)
    | Crash(error: Error)
    | Finished(writes: seq<FileWrite>, script: Option<string>)

  /** One file per mesh, named by zero-padded index. */
  function SeparateWrites(meshes: seq<Mesh>, out: string, format: string): (ws: seq<FileWrite>)
    ensures |ws| == |meshes|
    ensures forall i :: 0 <= i < |ws| ==>
              ws[i].meshes == [meshes[i]] && ws[i].path == SeparateFileName(out, i) && ws[i].format == format
  {
    seq(|meshes|, i requires 0 <= i < |meshes| => ExportToFile([meshes[i]], SeparateFileName(out, i), Some(format)))
  }

  /** The writes of a branch that meshes a brick list, merged or one file per mesh. */
  function MeshWrites(meshes: seq<Mesh>, out: string, format: string, separate: bool): seq<FileWrite> {
    if separate then SeparateWrites(meshes, out, format) else [ExportToFile(meshes, out, Some(format))]
  }

  /** No two writes share a path, and every path ends with the extension of `out`. */
  predicate WellNamed(ws: seq<FileWrite>, out: string) {
    && (forall i, j :: 0 <= i < j < |ws| ==> ws[i].path != ws[j].path)
    && (forall w :: w in ws ==> EndsWith(w.path, Splitext(out).ext))
  }

  predicate AllInFormat(ws: seq<FileWrite>, format: string) {
    forall w :: w in ws ==> w.format == format
  }

  lemma MeshWritesNamed(meshes: seq<Mesh>, out: string, format: string, separate: bool)
    ensures WellNamed(MeshWrites(meshes, out, format, separate), out)
    ensures AllInFormat(MeshWrites(meshes, out, format, separate), format)
  {
    var ws := MeshWrites(meshes, out, format, separate);
    if separate {
      forall i, j | 0 <= i < j < |ws| ensures ws[i].path != ws[j].path {
        SeparateFileNamesDistinct(out, i, j);
      }
      forall w | w in ws ensures EndsWith(w.path, Splitext(out).ext) {
        var i :| 0 <= i < |ws| && ws[i] == w;
        var s := Splitext(out);
        assert w.path == (s.root + IndexMarker(i)) + s.ext;
      }
    } else {
      var s := Splitext(out);
      assert out == s.root + s.ext;
    }
  }

  lemma SingleWriteWellNamed(w: FileWrite, out: string)
    requires w.path == out
    ensures WellNamed([w], out)
  {
    assert out == Splitext(out).root + Splitext(out).ext;
  }

  /** Uncoloured meshes of the bricks, in order: what `export_bricks_to_mesh` builds without
      colours, and what `export_bricks_pc_to_mesh` builds for a saved assembly. */
  function PlainMeshes(bs: seq<Brick>): (ms: seq<Mesh>)
    ensures |ms| == |bs| && forall i :: 0 <= i < |bs| ==> ms[i] == Mesh(bs[i], None)
  {
    seq(|bs|, i requires 0 <= i < |bs| => Mesh(bs[i], None))
  }

  /** The custom-assembly branch of `main` once positions are given: the bricks the flags
      describe, meshed without colour and written merged or one file per brick. */
  method CustomAssemblyWrites(types: seq<BrickType>, positions: seq<string>, rotations: Option<seq<string>>,
                              parseFloat: string -> Option<real>, out: string, format: string, separate: bool)
    returns (r: Result<seq<FileWrite>, Error>)
    ensures r.Failure? <==> FlagParseFails(types, positions, rotations, parseFloat)
    ensures r.Success? ==>
              exists bs :: FlagBricks(bs, types, positions, rotations, parseFloat)
                           && r.value == MeshWrites(PlainMeshes(bs), out, format, separate)
    ensures r.Success? ==> WellNamed(r.value, out) && AllInFormat(r.value, format)
    ensures r.Success? && separate ==>
              |r.value| == Min(|types|, |positions|)
              && forall i :: 0 <= i < |r.value| ==>
                   r.value[i].path == SeparateFileName(out, i)
                   && |r.value[i].meshes| == 1
                   && r.value[i].meshes[0].brick.brickType == types[i]
  {
    var bricks := CustomBricks(types, positions, rotations, parseFloat);
    if bricks.Failure? {
      return Failure(bricks.error);
    }
    var meshes := BricksToMeshes(bricks.value, None);
    assert meshes == PlainMeshes(bricks.value);
    MeshWritesNamed(meshes, out, format, separate);
    r := Success(MeshWrites(meshes, out, format, separate));
    assert FlagBricks(bricks.value, types, positions, rotations, parseFloat);
  }

  /** The saved-assembly branch of `main`: the loaded bricks meshed without colour and written
      merged or one file per brick; a load failure propagates. */
  method AssemblyFileWrites(path: string, env: Env, out: string, format: string, separate: bool)
    returns (r: Result<seq<FileWrite>, Error>)
    ensures r.Failure? <==> env.loadAssembly(path).Failure?
    ensures r.Failure? ==> r.error == env.loadAssembly(path).error
    ensures r.Success? ==> r.value == MeshWrites(PlainMeshes(env.loadAssembly(path).value), out, format, separate)
    ensures r.Success? ==> WellNamed(r.value, out) && AllInFormat(r.value, format)
  {
    var loaded := env.loadAssembly(path);
    if loaded.Failure? {
      return Failure(loaded.error);
    }
    var meshes := BricksToMeshes(loaded.value, None);
    assert meshes == PlainMeshes(loaded.value);
    MeshWritesNamed(meshes, out, format, separate);
    return Success(MeshWrites(meshes, out, format, separate));
  }

  /** `--brick_types` comes with a non-empty `--positions`. */
  predicate HasPositions(args: ExportArgs) {
    args.positions.Some? && |args.positions.value| > 0
  }

  /** Whether `main` raises for the selected input: a number in the flags that does not parse,
      a record that does not load or flatten, a saved assembly that does not load. */
  predicate ExportFails(args: ExportArgs, env: Env) {
    match RouteOf(args)
    case CustomAssembly(types) =>
      HasPositions(args) && FlagParseFails(types, args.positions.value, args.rotations, env.parseFloat)
    case FromRecord(p) =>
      env.loadRecord(p).Failure? || FlattenRecord(env.loadRecord(p).value, args.onlyFinal, args.withColors, env).Failure?
    case FromAssemblyFile(p) => env.loadAssembly(p).Failure?
    case SingleBrick(_) => false
    case NoRoute => false
  }

  /** `main`: resolve the format and the output path, then export the selected input. */
  method RunExport(args: ExportArgs, env: Env) returns (run: ExportRun)
    ensures run.Exit? <==> RouteOf(args).NoRoute? || (RouteOf(args).CustomAssembly? && !HasPositions(args))
    ensures run.Exit? ==> run.status == 1
    ensures run.Crash? <==> ExportFails(args, env)
    ensures run.Finished? ==>
              run.script == (if args.blenderScript then Some(BlenderScriptPath(FinalOutput(args.output, args.format))) else None)
    ensures run.Finished? ==> WellNamed(run.writes, FinalOutput(args.output, args.format))
    ensures run.Finished? && !RouteOf(args).FromRecord? ==> AllInFormat(run.writes, ResolveFormat(args.format, args.output))
    ensures run.Finished? && RouteOf(args).FromRecord? ==>
              |run.writes| == 1 && run.writes[0].path == FinalOutput(args.output, args.format)
              && run.writes[0].format == InferFormat(FinalOutput(args.output, args.format))
              && var flat := FlattenRecord(env.loadRecord(RouteOf(args).path).value, args.onlyFinal, args.withColors, env);
                 flat.Success? && RecordMeshes(run.writes[0].meshes, flat.value, args.withColors)
    ensures RouteOf(args).SingleBrick? ==>
              run.Finished? && run.writes == [ExportToFile([Mesh(Brick(RouteOf(args).brickType, Origin, IdentityRotation),
                                                  if args.withColors then Some(Red) else None)],
                                            FinalOutput(args.output, args.format),
                                            Some(ResolveFormat(args.format, args.output)))]
    ensures run.Finished? && RouteOf(args).CustomAssembly? ==>
              exists bs :: FlagBricks(bs, RouteOf(args).types, args.positions.value, args.rotations, env.parseFloat)
                           && run.writes == MeshWrites(PlainMeshes(bs), FinalOutput(args.output, args.format),
                                                       ResolveFormat(args.format, args.output), args.separate)
    ensures run.Finished? && RouteOf(args).CustomAssembly? && args.separate ==>
              |run.writes| == Min(|RouteOf(args).types|, |args.positions.value|)
              && forall i :: 0 <= i < |run.writes| ==>
                   run.writes[i].path == SeparateFileName(FinalOutput(args.output, args.format), i)
                   && |run.writes[i].meshes| == 1
                   && run.writes[i].meshes[0].brick.brickType == RouteOf(args).types[i]
    ensures run.Finished? && RouteOf(args).FromAssemblyFile? ==>
              run.writes == MeshWrites(PlainMeshes(env.loadAssembly(RouteOf(args).path).value),
                                       FinalOutput(args.output, args.format), ResolveFormat(args.format, args.output), args.separate)
  {
    var format := ResolveFormat(args.format, args.output);
    var out := EnsureExtension(args.output, format);
    var script := if args.blenderScript then Some(BlenderScriptPath(out)) else None;
    match RouteOf(args)
    case NoRoute =>
      return Exit(1);
    case SingleBrick(t) =>
      var mesh := Mesh(Brick(t, Origin, IdentityRotation), if args.withColors then Some(Red) else None);
      var w := ExportToFile([mesh], out, Some(format));
      SingleWriteWellNamed(w, out);
      return Finished([w], script);
    case CustomAssembly(types) =>
      if !HasPositions(args) {
        return Exit(1);
      }
      var ws := CustomAssemblyWrites(types, args.positions.value, args.rotations, env.parseFloat, out, format, args.separate);
      if ws.Failure? {
        return Crash(ws.error);
      }
      return Finished(ws.value, script);
    case FromRecord(path) =>
      var w := ExportFromJson(path, out, args.onlyFinal, args.withColors, env);
      if w.Failure? {
        return Crash(w.error);
      }
      SingleWriteWellNamed(w.value, out);
      return Finished([w.value], script);
    case FromAssemblyFile(path) =>
      var ws := AssemblyFileWrites(path, env, out, format, args.separate);
      if ws.Failure? {
        return Crash(ws.error);
      }
      return Finished(ws.value, script);
  }
}

=== FILE: interactive.dfy ===
/**
 * The interactive front end (interactive_bricks.py): building a custom assembly from
 * parallel lists, the `type x y z [w x y z]` line format of the assembly prompt and its
 * `done` sentinel, titling of rendered steps, and the menu's continue/exit answer.
 * Input lines are given as a finite sequence instead of being read from `input()`.
 */
module Interactive {
  import opened Wrappers
  import opened Text
  import opened Bricks

  // ---------------------------------------------------------------- create_custom_assembly

  /** The rotations `create_custom_assembly` pairs with the brick types: the given ones when
      there is exactly one per type, identity for every type otherwise. */
  function AssemblyRotations(types: seq<BrickType>, rotations: Option<seq<Coords>>): (r: seq<Coords>)
    ensures |r| == |types|
  {
    if rotations.Some? && |rotations.value| == |types| then rotations.value
    else seq(|types|, _ => IdentityRotation)
  }

  datatype CustomAssembly = CustomAssembly(bricks: seq<Brick>, title: string)

  /** `create_custom_assembly`: the bricks are the zipped (type, position, rotation) triples,
      as many as the shorter of types and positions, after rotations were defaulted. */
  function CreateCustomAssembly(types: seq<BrickType>, positions: seq<Coords>, rotations: Option<seq<Coords>>): (a: CustomAssembly)
    ensures |a.bricks| == Min(|types|, |positions|)
    ensures forall i :: 0 <= i < |a.bricks| ==>
              a.bricks[i].brickType == types[i] && a.bricks[i].position == positions[i]
    ensures rotations.Some? && |rotations.value| == |types| ==>
              forall i :: 0 <= i < |a.bricks| ==> a.bricks[i].rotation == rotations.value[i]
    ensures !(rotations.Some? && |rotations.value| == |types|) ==>
              forall i :: 0 <= i < |a.bricks| ==> a.bricks[i].rotation == IdentityRotation
  {
    var bricks := Zip3(types, positions, AssemblyRotations(types, rotations));
    CustomAssembly(bricks, "Custom Assembly (" + Decimal(|bricks|) + " bricks)")
  }

  // ---------------------------------------------------------------- the assembly prompt

  /** The outcome of one line typed at the `Brick:` prompt. */
  datatype LineResult =
    | Finish                                                        // the `done` sentinel
    | Reject                                                        // fewer than four tokens
    | Accept(brickType: BrickType, position: Coords, rotation: Coords)
    | Abort(error: Error)                                           // `float` raised

  /** The sentinel test: the stripped line is `done` in any letter case. */
  predicate IsDoneLine(line: string) {
    Lower(Strip(line)) == "done"
  }

  /** Whitespace around the sentinel does not matter: a line is `done` exactly when its
      stripped form is, and then the stripped form is four characters long. */
  lemma DoneLineOfStripped(line: string)
    ensures IsDoneLine(line) <==> IsDoneLine(Strip(line))
    ensures IsDoneLine(line) ==> |Strip(line)| == 4
  {
    StripIdempotent(line);
  }

  /** The numeric tokens of a line parse: tokens 1-3 always, tokens 4-7 when there are eight or more. */
  predicate NumbersParse(ts: seq<string>, parseFloat: string -> Option<real>)
    requires |ts| >= 4
  {
    && (forall i :: 1 <= i < 4 ==> parseFloat(ts[i]).Some?)
    && (|ts| >= 8 ==> forall i :: 4 <= i < 8 ==> parseFloat(ts[i]).Some?)
  }

  /** The brick a token list stands for, read position by position as the prompt documents it:
      tokens 1-3 are the position; tokens 4-7 the rotation when there are eight or more tokens,
      identity otherwise; anything further is ignored. */
  function TokensBrick(ts: seq<string>, parseFloat: string -> Option<real>): LineResult
    requires |ts| >= 4 && NumbersParse(ts, parseFloat)
  {
    Accept(ts[0],
           [parseFloat(ts[1]).value, parseFloat(ts[2]).value, parseFloat(ts[3]).value],
           if |ts| >= 8 then [parseFloat(ts[4]).value, parseFloat(ts[5]).value, parseFloat(ts[6]).value, parseFloat(ts[7]).value]
           else IdentityRotation)
  }

  /** Parsing a slice of tokens with `float` succeeds exactly when each token in it parses,
      giving their values in order. */
  lemma ParseSlice(ts: seq<string>, lo: nat, hi: nat, parseFloat: string -> Option<real>)
    requires lo <= hi <= |ts|
    ensures ParseNumbers(ts[lo..hi], parseFloat).Success? <==> forall i :: lo <= i < hi ==> parseFloat(ts[i]).Some?
    ensures ParseNumbers(ts[lo..hi], parseFloat).Success? ==>
              ParseNumbers(ts[lo..hi], parseFloat).value == seq(hi - lo, k requires 0 <= k < hi - lo => parseFloat(ts[lo + k]).value)
  {
    var sl := ts[lo..hi];
    assert forall k :: 0 <= k < hi - lo ==> sl[k] == ts[lo + k];
    if ParseNumbers(sl, parseFloat).Success? {
      forall i | lo <= i < hi ensures parseFloat(ts[i]).Some? {
        assert sl[i - lo] == ts[i];
      }
    }
  }

  /** The tokens after the type on an entered line, as the prompt loop reads them. */
  function ParseTokens(parts: seq<string>, parseFloat: string -> Option<real>): (r: LineResult)
    ensures !r.Finish?
    ensures r.Reject? <==> |parts| < 4
    ensures r.Abort? <==> |parts| >= 4 && !NumbersParse(parts, parseFloat)
    ensures r.Accept? ==> |parts| >= 4 && NumbersParse(parts, parseFloat) && r == TokensBrick(parts, parseFloat)
  {
    if |parts| < 4 then Reject
    else
      ParseSlice(parts, 1, 4, parseFloat);
      match ParseNumbers(parts[1..4], parseFloat)
      case Failure(e) => Abort(e)
      case Success(pos) =>
        if |parts| >= 8 then
          ParseSlice(parts, 4, 8, parseFloat);
          match ParseNumbers(parts[4..8], parseFloat)
          case Failure(e) => Abort(e)
          case Success(rot) => Accept(parts[0], pos, rot)
        else Accept(parts[0], pos, IdentityRotation)
  }

  /** One line typed at the `Brick:` prompt: the `done` sentinel, or the whitespace-separated
      tokens of the stripped line. */
  function ParseBrickLine(line: string, parseFloat: string -> Option<real>): (r: LineResult)
    ensures r.Finish? <==> IsDoneLine(line)
    ensures r.Accept? ==> IsWord(r.brickType) && |r.position| == 3 && |r.rotation| == 4
  {
    if IsDoneLine(line) then Finish
    else
      WordsAreWords(Strip(line));
      ParseTokens(Words(Strip(line)), parseFloat)
  }

  /** The tokens of a well-formed line: at least four words whose numeric ones parse. */
  predicate WellFormedTokens(ts: seq<string>, parseFloat: string -> Option<real>) {
    && |ts| >= 4
    && (forall i :: 0 <= i < |ts| ==> IsWord(ts[i]))
    && NumbersParse(ts, parseFloat)
  }

  /** Typing the tokens separated by spaces yields exactly the brick they describe. */
  lemma ParseOfTypedLine(ts: seq<string>, parseFloat: string -> Option<real>)
    requires WellFormedTokens(ts, parseFloat)
    ensures ParseBrickLine(JoinWords(ts), parseFloat) == TokensBrick(ts, parseFloat)
  {
    var line := JoinWords(ts);
    StripOfJoin(ts);
    TypedLineIsNotDone(ts);
    WordsOfJoin(ts);
  }

  /** A space-joined list of words has nothing to strip. */
  lemma StripOfJoin(ts: seq<string>)
    requires |ts| > 0 && forall i :: 0 <= i < |ts| ==> IsWord(ts[i])
    ensures Strip(JoinWords(ts)) == JoinWords(ts)
  {
    var line := JoinWords(ts);
    JoinWordsStart(ts);
    JoinWordsEnd(ts);
    assert TrimStart(line) == line;
    assert TrimEnd(line) == line;
  }

  /** A line of two or more words is never the `done` sentinel. */
  lemma TypedLineIsNotDone(ts: seq<string>)
    requires |ts| > 1 && forall i :: 0 <= i < |ts| ==> IsWord(ts[i])
    ensures !IsDoneLine(JoinWords(ts))
  {
    var line := JoinWords(ts);
    StripOfJoin(ts);
    JoinWordsHasSpace(ts);
    var k :| 0 <= k < |line| && line[k] == ' ';
    SpacedLineIsNotDone(line, k);
  }

  /** A line holding a space does not lower-case to `done`. */
  lemma SpacedLineIsNotDone(line: string, k: nat)
    requires k < |line| && line[k] == ' '
    ensures Lower(line) != "done"
  {
    assert Lower(line)[k] == ' ';
    assert forall j :: 0 <= j < |"done"| ==> "done"[j] != ' ';
  }

  /** A space-joined list of words ends with the last word's last character. */
  lemma {:induction false} JoinWordsEnd(ws: seq<string>)
    requires |ws| > 0 && forall i :: 0 <= i < |ws| ==> ws[i] != ""
    ensures JoinWords(ws) != "" && JoinWords(ws)[|JoinWords(ws)| - 1] == ws[|ws| - 1][|ws[|ws| - 1]| - 1]
  {
    if |ws| > 1 {
      JoinWordsEnd(ws[1..]);
      assert ws[1..][|ws[1..]| - 1] == ws[|ws| - 1];
    }
  }

  /** The three lists the prompt loop fills. */
  datatype Gathered = Gathered(types: seq<BrickType>, positions: seq<Coords>, rotations: seq<Coords>)

  predicate Lockstep(g: Gathered) {
    |g.types| == |g.positions| == |g.rotations|
  }

  /** The prompt loop of menu option 3: lines are read until `done`; rejected lines are
      skipped; accepted lines append to all three lists; a `float` error ends the option.
      Returns the lists and the lines left unread. */
  function GatherBricks(lines: seq<string>, parseFloat: string -> Option<real>): (r: Result<(Gathered, seq<string>), Error>)
    ensures r.Success? ==> WellFormedEntries(r.value.0)
    ensures r.Success? ==> ProperSuffix(r.value.1, lines)
    decreases |lines|
  {
    if |lines| == 0 then Failure(EndOfInput)
    else
      match ParseBrickLine(lines[0], parseFloat)
      case Finish => Success((Gathered([], [], []), lines[1..]))
      case Reject =>
        var r := GatherBricks(lines[1..], parseFloat);
        if r.Success? then ProperSuffixOfTail(r.value.1, lines); r else r
      case Abort(e) => Failure(e)
      case Accept(t, p, q) =>
        var later :- GatherBricks(lines[1..], parseFloat);
        ProperSuffixOfTail(later.1, lines);
        PrependEntry(t, p, q, later.0);
        Success((Prepend(t, p, q, later.0), later.1))
  }

  /** A line on which `float` raises ends the option with that error, whatever lines follow it. */
  lemma AbortedLineStopsGathering(line: string, rest: seq<string>, parseFloat: string -> Option<real>)
    requires ParseBrickLine(line, parseFloat).Abort?
    ensures GatherBricks([line] + rest, parseFloat) == Failure(ParseBrickLine(line, parseFloat).error)
  {
    assert ([line] + rest)[0] == line;
  }

  /** A failure later in the input is the failure of the whole option when the lines before it
      are accepted or rejected bricks. */
  lemma ContinuedLineKeepsFailure(line: string, rest: seq<string>, parseFloat: string -> Option<real>)
    requires Continues(line, parseFloat)
    requires GatherBricks(rest, parseFloat).Failure?
    ensures GatherBricks([line] + rest, parseFloat) == GatherBricks(rest, parseFloat)
  {
    assert ([line] + rest)[0] == line;
    assert ([line] + rest)[1..] == rest;
  }

  /** A line after which the prompt loop reads the next one: an accepted or rejected brick. */
  predicate Continues(line: string, parseFloat: string -> Option<real>) {
    ParseBrickLine(line, parseFloat).Accept? || ParseBrickLine(line, parseFloat).Reject?
  }

  /** Every entry of the lists is a brick the prompt accepts: a one-word type, a three-value
      position and a four-value rotation. */
  predicate WellFormedEntries(g: Gathered) {
    && Lockstep(g)
    && forall i :: 0 <= i < |g.types| ==>
         IsWord(g.types[i]) && |g.positions[i]| == 3 && |g.rotations[i]| == 4
  }

  /** The three `append` calls of an accepted line, seen from the end of the input. */
  function Prepend(t: BrickType, p: Coords, q: Coords, g: Gathered): Gathered {
    Gathered([t] + g.types, [p] + g.positions, [q] + g.rotations)
  }

  lemma PrependEntry(t: BrickType, p: Coords, q: Coords, g: Gathered)
    requires WellFormedEntries(g) && IsWord(t) && |p| == 3 && |q| == 4
    ensures WellFormedEntries(Prepend(t, p, q, g))
  {
    var g' := Prepend(t, p, q, g);
    forall i | 1 <= i < |g'.types|
      ensures IsWord(g'.types[i]) && |g'.positions[i]| == 3 && |g'.rotations[i]| == 4
    {
      assert g'.types[i] == g.types[i - 1];
      assert g'.positions[i] == g.positions[i - 1];
      assert g'.rotations[i] == g.rotations[i - 1];
    }
  }

  /** The input left unread: a strictly shorter tail of the lines. */
  predicate ProperSuffix(rest: seq<string>, lines: seq<string>) {
    |rest| < |lines| && rest == lines[|lines| - |rest|..]
  }

  lemma ProperSuffixOfTail(rest: seq<string>, lines: seq<string>)
    requires |lines| > 0 && ProperSuffix(rest, lines[1..])
    ensures ProperSuffix(rest, lines)
  {
    assert lines[1..][|lines| - 1 - |rest|..] == lines[|lines| - |rest|..];
  }

  /** A rejected line leaves all three lists unchanged. */
  lemma RejectedLineChangesNothing(line: string, rest: seq<string>, parseFloat: string -> Option<real>)
    requires !IsDoneLine(line) && |Words(Strip(line))| < 4
    ensures GatherBricks([line] + rest, parseFloat) == GatherBricks(rest, parseFloat)
  {
    assert ([line] + rest)[1..] == rest;
  }

  /** The `done` sentinel ends the input without adding anything. */
  lemma DoneLineEndsInput(line: string, rest: seq<string>, parseFloat: string -> Option<real>)
    requires IsDoneLine(line)
    ensures GatherBricks([line] + rest, parseFloat) == Success((Gathered([], [], []), rest))
  {
    assert ([line] + rest)[1..] == rest;
  }

  /** The lines a user types for a list of token lists. */
  function TypedLines(tls: seq<seq<string>>): (lines: seq<string>)
    ensures |lines| == |tls|
  {
    if |tls| == 0 then [] else [JoinWords(tls[0])] + TypedLines(tls[1..])
  }

  /** The three lists hold, entry by entry, the bricks that the well-formed token lists describe. */
  predicate GatheredFrom(g: Gathered, tls: seq<seq<string>>, parseFloat: string -> Option<real>) {
    && Lockstep(g) && |g.types| == |tls|
    && forall i :: 0 <= i < |tls| ==>
         WellFormedTokens(tls[i], parseFloat)
         && TokensBrick(tls[i], parseFloat) == Accept(g.types[i], g.positions[i], g.rotations[i])
  }

  /** For well-formed lines closed by `done`, the session's lists hold exactly the bricks the
      lines describe, in order, and reading stops right after `done`. */
  lemma {:induction false} GatherTypedLines(tls: seq<seq<string>>, rest: seq<string>, parseFloat: string -> Option<real>)
    requires forall i :: 0 <= i < |tls| ==> WellFormedTokens(tls[i], parseFloat)
    ensures var r := GatherBricks(TypedLines(tls) + ["done"] + rest, parseFloat);
            r.Success? && r.value.1 == rest && GatheredFrom(r.value.0, tls, parseFloat)
  {
    if |tls| == 0 {
      GatherDoneOnly(rest, parseFloat);
    } else {
      var tail := tls[1..];
      forall i | 0 <= i < |tail| ensures WellFormedTokens(tail[i], parseFloat) { assert tail[i] == tls[i + 1]; }
      GatherTypedLines(tail, rest, parseFloat);
      GatherTypedLinesStep(tls, rest, parseFloat);
    }
  }

  /** With no brick lines before `done`, nothing is gathered. */
  lemma GatherDoneOnly(rest: seq<string>, parseFloat: string -> Option<real>)
    ensures var r := GatherBricks(TypedLines([]) + ["done"] + rest, parseFloat);
            r.Success? && r.value.1 == rest && GatheredFrom(r.value.0, [], parseFloat)
  {
    assert TypedLines([]) + ["done"] + rest == ["done"] + rest;
    DoneIsDoneLine();
    DoneLineEndsInput("done", rest, parseFloat);
  }

  lemma DoneIsDoneLine()
    ensures IsDoneLine("done")
  {
    var d := "done";
    assert !IsSpace(d[0]) && !IsSpace(d[|d| - 1]);
    assert Strip(d) == d;
    assert forall j :: 0 <= j < |d| ==> LowerChar(d[j]) == d[j];
  }

  /** One more well-formed line in front adds its brick in front of the lists. */
  lemma GatherTypedLinesStep(tls: seq<seq<string>>, rest: seq<string>, parseFloat: string -> Option<real>)
    requires |tls| > 0 && WellFormedTokens(tls[0], parseFloat)
    requires var r := GatherBricks(TypedLines(tls[1..]) + ["done"] + rest, parseFloat);
             r.Success? && r.value.1 == rest && GatheredFrom(r.value.0, tls[1..], parseFloat)
    ensures var r := GatherBricks(TypedLines(tls) + ["done"] + rest, parseFloat);
            r.Success? && r.value.1 == rest && GatheredFrom(r.value.0, tls, parseFloat)
  {
    var lines' := TypedLines(tls[1..]) + ["done"] + rest;
    TypedLinesCons(tls, rest);
    var later := GatherBricks(lines', parseFloat).value;
    GatherAccepted(JoinWords(tls[0]), lines', parseFloat, tls[0]);
    GatheredFromCons(later.0, tls, parseFloat);
  }

  /** The typed lines of a non-empty list start with the first list's line. */
  lemma TypedLinesCons(tls: seq<seq<string>>, rest: seq<string>)
    requires |tls| > 0
    ensures TypedLines(tls) + ["done"] + rest == [JoinWords(tls[0])] + (TypedLines(tls[1..]) + ["done"] + rest)
  {
    var h := JoinWords(tls[0]);
    var t := TypedLines(tls[1..]);
    assert TypedLines(tls) == [h] + t;
    ConcatAssoc([h], t, ["done"]);
    ConcatAssoc([h], t + ["done"], rest);
  }

  /** Putting the brick of the first token list in front of what the others gathered gives
      what all of them gather. */
  lemma GatheredFromCons(g': Gathered, tls: seq<seq<string>>, parseFloat: string -> Option<real>)
    requires |tls| > 0 && WellFormedTokens(tls[0], parseFloat)
    requires GatheredFrom(g', tls[1..], parseFloat)
    ensures var t := TokensBrick(tls[0], parseFloat);
            GatheredFrom(Prepend(t.brickType, t.position, t.rotation, g'), tls, parseFloat)
  {
    var t := TokensBrick(tls[0], parseFloat);
    var g := Prepend(t.brickType, t.position, t.rotation, g');
    forall i | 0 <= i < |tls|
      ensures WellFormedTokens(tls[i], parseFloat)
      ensures TokensBrick(tls[i], parseFloat) == Accept(g.types[i], g.positions[i], g.rotations[i])
    {
      if i > 0 {
        assert tls[i] == tls[1..][i - 1];
      }
    }
  }

  /** A typed line of well-formed tokens puts its brick in front of what the later lines gather. */
  lemma GatherAccepted(line: string, rest: seq<string>, parseFloat: string -> Option<real>, ts: seq<string>)
    requires WellFormedTokens(ts, parseFloat) && line == JoinWords(ts)
    requires GatherBricks(rest, parseFloat).Success?
    ensures var t := TokensBrick(ts, parseFloat);
            var later := GatherBricks(rest, parseFloat).value;
            GatherBricks([line] + rest, parseFloat) == Success((Prepend(t.brickType, t.position, t.rotation, later.0), later.1))
  {
    ParseOfTypedLine(ts, parseFloat);
    GatherOfAccepted(line, rest, parseFloat);
  }

  /** An accepted line puts its brick in front of what the later lines gather. */
  lemma GatherOfAccepted(line: string, rest: seq<string>, parseFloat: string -> Option<real>)
    requires ParseBrickLine(line, parseFloat).Accept?
    requires GatherBricks(rest, parseFloat).Success?
    ensures var t := ParseBrickLine(line, parseFloat);
            var later := GatherBricks(rest, parseFloat).value;
            GatherBricks([line] + rest, parseFloat) == Success((Prepend(t.brickType, t.position, t.rotation, later.0), later.1))
  {
    assert ([line] + rest)[0] == line;
    assert ([line] + rest)[1..] == rest;
  }

  /** What menu option 3 ends with. */
  datatype SessionOutcome =
    | NothingAdded
    | Rendered(assembly: CustomAssembly, highlight: bool)
    | Aborted(error: Error)

  /** Menu option 3: gather bricks, then, if any were added, ask about highlighting and
      render them; with none, nothing is rendered. */
  function AssemblySession(lines: seq<string>, parseFloat: string -> Option<real>): (o: SessionOutcome)
    ensures o.NothingAdded? <==>
              GatherBricks(lines, parseFloat).Success? && |GatherBricks(lines, parseFloat).value.0.types| == 0
    ensures o.Rendered? ==>
              GatherBricks(lines, parseFloat).Success? &&
              var g := GatherBricks(lines, parseFloat).value.0;
              && |o.assembly.bricks| == |g.types| > 0
              && forall i :: 0 <= i < |g.types| ==>
                   o.assembly.bricks[i] == Brick(g.types[i], g.positions[i], g.rotations[i])
    ensures o.Rendered? <==>
              && GatherBricks(lines, parseFloat).Success?
              && |GatherBricks(lines, parseFloat).value.0.types| > 0
              && |GatherBricks(lines, parseFloat).value.1| > 0
    ensures o.Rendered? ==> o.highlight == (Lower(Strip(GatherBricks(lines, parseFloat).value.1[0])) == "y")
    ensures o.Aborted? ==>
              || GatherBricks(lines, parseFloat) == Failure(o.error)
              || (GatherBricks(lines, parseFloat).Success? && |GatherBricks(lines, parseFloat).value.1| == 0 && o.error == EndOfInput)
  {
    match GatherBricks(lines, parseFloat)
    case Failure(e) => Aborted(e)
    case Success(got) =>
      var (g, rest) := got;
      if |g.types| == 0 then NothingAdded
      else if |rest| == 0 then Aborted(EndOfInput)
      else Rendered(CreateCustomAssembly(g.types, g.positions, Some(g.rotations)), Lower(Strip(rest[0])) == "y")
  }

  // ---------------------------------------------------------------- render_from_data_file

  /** How one rendered step is presented: displayed under a title, blocking or not, or saved. */
  datatype Presentation = Show(title: string, block: bool) | Save(path: string)

  /** The title of image `i` of `count`. */
  function StepTitle(i: nat, count: nat): (t: string)
    ensures t == "Final Assembly" <==> count <= 1
  {
    assert ("Step " + Decimal(i + 1))[0] == 'S';
    if count > 1 then "Step " + Decimal(i + 1) else "Final Assembly"
  }

  /** With several images, a title reads back as the step number, counted from one. */
  lemma StepTitleNumber(i: nat, count: nat)
    requires count > 1
    ensures var t := StepTitle(i, count);
            |t| > 5 && t[..5] == "Step " && AllDigits(t[5..]) && DigitsValue(t[5..]) == i + 1
  {
    var t := StepTitle(i, count);
    assert t[5..] == Decimal(i + 1);
    DecimalValue(i + 1);
  }

  /** The loop of `render_from_data_file`: each image is shown under its title, blocking only
      on the last one, or, without display, saved as `debug/step_<i>.png`. */
  function PresentSteps<I>(images: seq<I>, show: bool): (ps: seq<(Presentation, I)>)
    ensures |ps| == |images|
    ensures forall i :: 0 <= i < |ps| ==> ps[i].1 == images[i]
  {
    seq(|images|, i requires 0 <= i < |images| =>
      (if show then Show(StepTitle(i, |images|), i == |images| - 1) else Save("debug/step_" + Decimal(i) + ".png"),
       images[i]))
  }

  /** `render_from_data_file` after rendering: the `only_final` flag wraps the result into the
      list the loop presents; a result of the other shape makes the loop raise. */
  function RenderFromDataFile<I>(rendered: Rendered<I>, onlyFinal: bool, show: bool): (r: Result<seq<(Presentation, I)>, Error>)
    ensures r.Failure? <==> (rendered.Single? != onlyFinal)
    ensures r.Failure? ==> r.error == NotAnImage
    ensures r.Success? ==> r.value == PresentSteps(ImageList(rendered, onlyFinal).value, show)
  {
    var images :- ImageList(rendered, onlyFinal);
    Success(PresentSteps(images, show))
  }

  /** With `only_final`, the single final image is presented alone, as "Final Assembly",
      blocking, or saved as step 0. */
  lemma FinalImagePresentation<I>(image: I, show: bool)
    ensures RenderFromDataFile(Single(image), true, show)
         == Success([(if show then Show("Final Assembly", true) else Save("debug/step_0.png"), image)])
  {
    var ps := PresentSteps([image], show);
    assert |ps| == 1;
    assert Decimal(0) == "0";
    assert StepTitle(0, 1) == "Final Assembly";
    assert "debug/step_" + Decimal(0) + ".png" == "debug/step_0.png";
    assert ps[0] == (if show then Show("Final Assembly", true) else Save("debug/step_0.png"), image);
    assert ps == [(if show then Show("Final Assembly", true) else Save("debug/step_0.png"), image)];
    assert ImageList(Single(image), true) == Success([image]);
  }

  /** Distinct steps are presented differently: titles differ when there are several, and
      saved paths always differ; exactly the last display blocks. */
  lemma PresentationsDistinct<I>(images: seq<I>, show: bool)
    ensures var ps := PresentSteps(images, show);
            && (forall i, j :: 0 <= i < j < |ps| ==> ps[i].0 != ps[j].0)
            && (show ==> forall i :: 0 <= i < |ps| ==> (ps[i].0.block <==> i == |ps| - 1))
  {
    var ps := PresentSteps(images, show);
    forall i, j | 0 <= i < j < |ps| ensures ps[i].0 != ps[j].0 {
      if show {
        DecimalInjective(i + 1, j + 1);
        InfixDistinct("Step ", Decimal(i + 1), Decimal(j + 1), "");
        assert "Step " + Decimal(i + 1) + "" == "Step " + Decimal(i + 1);
        assert "Step " + Decimal(j + 1) + "" == "Step " + Decimal(j + 1);
      } else {
        DecimalInjective(i, j);
        InfixDistinct("debug/step_", Decimal(i), Decimal(j), ".png");
      }
    }
  }

  // ---------------------------------------------------------------- the menu

  /** The menu's choices as a closed set of commands; anything else is invalid. */
  datatype Command = RenderBrick | ExploreTypes | BuildAssembly | RenderRecord | RenderAssemblyFile | Quit | Invalid

  function ParseChoice(input: string): Command {
    var c := Strip(input);
    if c == "1" then RenderBrick
    else if c == "2" then ExploreTypes
    else if c == "3" then BuildAssembly
    else if c == "4" then RenderRecord
    else if c == "5" then RenderAssemblyFile
    else if c == "6" then Quit
    else Invalid
  }

  /** The value `interactive_menu` returns: the loop goes on for every choice but `6`. */
  function MenuContinues(input: string): (more: bool)
    ensures !more <==> Strip(input) == "6"
  {
    !ParseChoice(input).Quit?
  }
}

=== FILE: paths.dfy ===
/**
 * POSIX path helpers as Python's `os.path` computes them: `basename` and `splitext`.
 * `splitext` is characterised exactly by the join lemma: it splits off an extension
 * precisely when the path is a stem-bearing root followed by one dot-led component suffix.
 */
module Paths {
  import opened Text

  const PathSep: char := '/'
  const ExtSep: char := '.'

  /** Index of the last occurrence of `c` in `s`, or -1 when it does not occur. */
  function LastIndex(s: string, c: char): (r: int)
    ensures -1 <= r < |s|
    ensures r >= 0 ==> s[r] == c
    ensures forall k :: r < k < |s| ==> s[k] != c
  {
    if |s| == 0 then -1
    else if s[|s| - 1] == c then |s| - 1
    else LastIndex(s[..|s| - 1], c)
  }

  /** Cutting a string after its last `c` leaves that occurrence the last one. */
  lemma LastIndexOfPrefix(s: string, c: char, j: nat)
    requires LastIndex(s, c) < j <= |s|
    ensures LastIndex(s[..j], c) == LastIndex(s, c)
  {
    var r := LastIndex(s, c);
    var r' := LastIndex(s[..j], c);
    if r >= 0 {
      assert s[..j][r] == c;
    }
    if r' >= 0 {
      assert s[r'] == c;
    }
  }

  /** Appending text without `c` does not move the last `c`. */
  lemma LastIndexOfAppend(a: string, b: string, c: char)
    requires c !in b
    ensures LastIndex(a + b, c) == LastIndex(a, c)
  {
    var s := a + b;
    LastIndexOfPrefix(s, c, |a|);
    assert s[..|a|] == a;
  }

  /** `os.path.basename(p)`: everything after the last `/`. */
  function BaseName(p: string): (b: string)
    ensures PathSep !in b
    ensures EndsWith(p, b)
  {
    p[LastIndex(p, PathSep) + 1..]
  }

  /** The base name is the longest slash-free suffix: either the whole path or what follows a `/`. */
  lemma BaseNameIsLongest(p: string)
    ensures var b := BaseName(p); |b| == |p| || p[|p| - |b| - 1] == PathSep
  {
  }

  /** Appending text without `/` extends the final path component. */
  lemma BaseNameOfAppend(p: string, s: string)
    requires PathSep !in s
    ensures BaseName(p + s) == BaseName(p) + s
  {
    LastIndexOfAppend(p, s, PathSep);
  }

  predicate AllDots(s: string) {
    forall k :: 0 <= k < |s| ==> s[k] == ExtSep
  }

  /** An extension as `splitext` returns it: a dot, then neither a dot nor a slash. */
  predicate IsExtension(e: string) {
    |e| > 0 && e[0] == ExtSep && ExtSep !in e[1..] && PathSep !in e
  }

  /** A root `splitext` may split an extension off: its final component has a character
      other than a dot (so hidden-file names such as `.obj` are all root). */
  predicate HasStem(root: string) {
    !AllDots(BaseName(root))
  }

  datatype Split = Split(root: string, ext: string)

  /** `os.path.splitext(p)` for POSIX paths. */
  function Splitext(p: string): (r: Split)
    ensures r.root + r.ext == p
    ensures r.ext == "" || (IsExtension(r.ext) && HasStem(r.root))
  {
    var i := ExtensionStart(p);
    if i < |p| then
      assert p[..i] + p[i..] == p;
      Split(p[..i], p[i..])
    else
      assert p + "" == p;
      Split(p, "")
  }

  /** Where `splitext` cuts: at the last dot when it follows the last slash and some non-dot
      character of the final component, else at the end. */
  function ExtensionStart(p: string): (i: nat)
    ensures i <= |p|
    ensures i < |p| ==> IsExtension(p[i..]) && HasStem(p[..i])
  {
    var sep := LastIndex(p, PathSep);
    var dot := LastIndex(p, ExtSep);
    if dot > sep && !AllDots(p[sep + 1..dot]) then
      SplitPointParts(p, sep, dot);
      dot
    else |p|
  }

  /** Splitting at the last dot, when it follows the last slash and a non-dot character,
      yields an extension and a stem-bearing root. */
  lemma SplitPointParts(p: string, sep: int, dot: int)
    requires sep == LastIndex(p, PathSep) && dot == LastIndex(p, ExtSep)
    requires dot > sep && !AllDots(p[sep + 1..dot])
    ensures IsExtension(p[dot..]) && HasStem(p[..dot])
  {
    var e := p[dot..];
    assert forall k :: 0 <= k < |e| ==> e[k] == p[dot + k];
    assert ExtSep !in e[1..];
    assert PathSep !in e;
    LastIndexOfPrefix(p, PathSep, dot);
    assert BaseName(p[..dot]) == p[sep + 1..dot];
  }

  /** Joining a stem-bearing root and an extension is undone by `splitext`. */
  lemma SplitextOfJoin(root: string, ext: string)
    requires IsExtension(ext) && HasStem(root)
    ensures Splitext(root + ext) == Split(root, ext)
  {
    var p := root + ext;
    LastIndexOfAppend(root, ext, PathSep);
    var sep := LastIndex(root, PathSep);
    assert LastIndex(p, ExtSep) == |root| by {
      assert p[|root|] == ExtSep;
      assert forall k :: |root| < k < |p| ==> p[k] == ext[1..][k - |root| - 1];
    }
    assert p[sep + 1..|root|] == BaseName(root);
    assert p[..|root|] == root;
    assert p[|root|..] == ext;
  }

  /** `splitext` returns a non-empty extension exactly for a stem-bearing root followed by an extension. */
  lemma SplitextCharacterisation(p: string, root: string, ext: string)
    requires ext != ""
    ensures Splitext(p) == Split(root, ext) <==> (p == root + ext && IsExtension(ext) && HasStem(root))
  {
    if p == root + ext && IsExtension(ext) && HasStem(root) {
      SplitextOfJoin(root, ext);
    }
  }

  /** Appending a slash-free text with some non-dot character gives a root with a stem. */
  lemma HasStemOfAppend(p: string, s: string, k: nat)
    requires PathSep !in s
    requires k < |s| && s[k] != ExtSep
    ensures HasStem(p + s)
  {
    BaseNameOfAppend(p, s);
    var b := BaseName(p) + s;
    assert b[|BaseName(p)| + k] == s[k];
  }

  /** Inserting a text without dots or slashes between the root and the extension of a path
      leaves the extension where `splitext` finds it, whether or not there is one. */
  lemma SplitextOfInsert(p: string, m: string)
    requires |m| > 0 && ExtSep !in m && PathSep !in m
    ensures Splitext(Splitext(p).root + m + Splitext(p).ext) == Split(Splitext(p).root + m, Splitext(p).ext)
  {
    var s := Splitext(p);
    if s.ext != "" {
      HasStemOfAppend(s.root, m, 0);
      SplitextOfJoin(s.root + m, s.ext);
    } else {
      assert s.root == p;
      LastIndexOfAppend(p, m, PathSep);
      LastIndexOfAppend(p, m, ExtSep);
      var sep := LastIndex(p, PathSep);
      var dot := LastIndex(p, ExtSep);
      assert dot > sep ==> (p + m)[sep + 1..dot] == p[sep + 1..dot];
      assert p + m + "" == p + m;
    }
  }

  /** A name without slashes, put in a directory path ending with a slash, is that path's base name. */
  lemma BaseNameInDirectory(dir: string, name: string)
    requires |dir| > 0 && dir[|dir| - 1] == PathSep && PathSep !in name
    ensures BaseName(dir + name) == name
  {
    BaseNameOfAppend(dir, name);
    assert LastIndex(dir, PathSep) == |dir| - 1;
    assert BaseName(dir) == [];
    assert [] + name == name;
  }

  /** A file `<dir><stem><ext>` whose stem holds no slash and is not all dots splits into
      `<dir><stem>` and its extension. */
  lemma SplitextOfFile(dir: string, stem: string, ext: string)
    requires !AllDots(stem) && PathSep !in stem && IsExtension(ext)
    ensures Splitext(dir + stem + ext) == Split(dir + stem, ext)
  {
    var k :| 0 <= k < |stem| && stem[k] != ExtSep;
    HasStemOfAppend(dir, stem, k);
    SplitextOfJoin(dir + stem, ext);
  }
}

=== FILE: render.dfy ===
/** The image paths of the rendering front end: default `debug/...` names, per-step names
    for a construction record, and the choice of input in `main`. Images themselves are
    opaque values produced by a renderer that is not part of this model. */
module Render {
  import opened Wrappers
  import opened Text
  import opened Paths
  import opened Bricks

  /** The directory every default path lies in. */
  const DebugDir: string := "debug/"

  /** The extension of every default image path. */
  const PngExt: string := ".png"

  /** The brick rendered when no input is named. */
  const ExampleBrickType: BrickType := "3001"

  /** The path `render_custom_bricks` saves to without `--output`. */
  const CustomBricksPath: string := DebugDir + "custom_bricks" + PngExt

  /** A default image path `debug/<stem>.png` lies directly in the debug directory, is named
      `<stem>.png` there, and `splitext` finds its `.png` extension. */
  predicate DebugImage(p: string, stem: string) {
    && |p| >= |DebugDir| && p[..|DebugDir|] == DebugDir
    && BaseName(p) == stem + PngExt
    && Splitext(p) == Split(DebugDir + stem, PngExt)
    && Splitext(BaseName(p)) == Split(stem, PngExt)
  }

  lemma DebugImageOf(stem: string)
    requires !AllDots(stem) && PathSep !in stem
    ensures DebugImage(DebugDir + stem + PngExt, stem)
  {
    var p := DebugDir + stem + PngExt;
    var name := stem + PngExt;
    assert IsExtension(PngExt);
    assert PathSep !in name by {
      assert forall k :: 0 <= k < |stem| ==> name[k] == stem[k];
      assert forall k :: |stem| <= k < |name| ==> name[k] == PngExt[k - |stem|];
    }
    assert p == DebugDir + name;
    assert DebugDir[|DebugDir| - 1] == PathSep;
    BaseNameInDirectory(DebugDir, name);
    SplitextOfFile(DebugDir, stem, PngExt);
    SplitextOfFile([], stem, PngExt);
    assert [] + stem == stem;
  }

  /** A stem that ends in a non-dot character is not all dots. */
  lemma NotAllDotsOfAppend(a: string, b: string)
    requires |b| > 0 && b[0] != ExtSep
    ensures !AllDots(a + b)
  {
    assert (a + b)[|a|] == b[0];
  }

  /** Slash-free texts concatenate to a slash-free text. */
  lemma NoSlashOfAppend(a: string, b: string)
    requires PathSep !in a && PathSep !in b
    ensures PathSep !in a + b
  {
    assert forall k :: 0 <= k < |a + b| ==> (a + b)[k] == (if k < |a| then a[k] else b[k - |a|]);
  }

  // ---------------------------------------------------------------- default paths

  /** `render_single_brick`: the given output, or `debug/brick_<type>.png`. */
  function SingleBrickPath(brickType: BrickType, output: Option<string>): string {
    if Truthy(output) then output.value else DebugDir + ("brick_" + brickType) + PngExt
  }

  /** Without an output, a brick type without slashes is saved as `brick_<type>.png` directly in
      the debug directory; with an output, the output is used unchanged. */
  lemma SingleBrickPathShape(brickType: BrickType, output: Option<string>)
    requires PathSep !in brickType
    ensures Truthy(output) ==> SingleBrickPath(brickType, output) == output.value
    ensures !Truthy(output) ==> DebugImage(SingleBrickPath(brickType, output), "brick_" + brickType)
  {
    if !Truthy(output) {
      var prefix := "brick_";
      assert PathSep !in prefix && prefix[0] != ExtSep;
      NoSlashOfAppend(prefix, brickType);
      assert (prefix + brickType)[0] == prefix[0];
      DebugImageOf(prefix + brickType);
    }
  }

  /** Different brick types get different default paths. */
  lemma SingleBrickPathsDistinct(brickType: BrickType, other: BrickType)
    requires brickType != other
    ensures SingleBrickPath(brickType, None) != SingleBrickPath(other, None)
  {
    var prefix := "brick_";
    assert SingleBrickPath(brickType, None) == DebugDir + prefix + brickType + PngExt;
    assert SingleBrickPath(other, None) == DebugDir + prefix + other + PngExt;
    InfixDistinct(DebugDir + prefix, brickType, other, PngExt);
  }

  /** `render_from_bricks_pc`: the given output, or `debug/<stem>_rendered.png` where the stem
      is the saved assembly's file name without its extension. */
  function AssemblyImagePath(bricksPcPath: string, output: Option<string>): string {
    if Truthy(output) then output.value
    else DebugDir + (FileStem(bricksPcPath) + "_rendered") + PngExt
  }

  /** The file name of a path without its extension. */
  function FileStem(path: string): (stem: string)
    ensures PathSep !in stem
  {
    var b := BaseName(path);
    var s := Splitext(b);
    assert forall k :: 0 <= k < |s.root| ==> s.root[k] == b[k];
    s.root
  }

  /** The file name is its stem followed by nothing or by one extension, and a stem before an
      extension is not all dots. */
  lemma FileStemOfName(path: string)
    ensures var stem := FileStem(path);
            var ext := Splitext(BaseName(path)).ext;
            && BaseName(path) == stem + ext
            && (ext == "" || (IsExtension(ext) && !AllDots(stem)))
  {
    var stem := FileStem(path);
    assert PathSep !in stem;
    assert LastIndex(stem, PathSep) == -1;
    assert BaseName(stem) == stem;
  }

  /** Without an output, the rendered assembly goes straight into the debug directory as
      `<stem>_rendered.png`. */
  lemma AssemblyImagePathShape(bricksPcPath: string)
    ensures DebugImage(AssemblyImagePath(bricksPcPath, None), FileStem(bricksPcPath) + "_rendered")
  {
    var stem := FileStem(bricksPcPath);
    var suffix := "_rendered";
    assert PathSep !in suffix && suffix[0] != ExtSep;
    NoSlashOfAppend(stem, suffix);
    NotAllDotsOfAppend(stem, suffix);
    DebugImageOf(stem + suffix);
  }

  /** Two assembly files with different stems never share a default image path. */
  lemma AssemblyImagePathsDistinct(bricksPcPath: string, other: string)
    requires FileStem(bricksPcPath) != FileStem(other)
    ensures AssemblyImagePath(bricksPcPath, None) != AssemblyImagePath(other, None)
  {
    InfixSuffixDistinct(DebugDir, FileStem(bricksPcPath), FileStem(other), "_rendered", PngExt);
  }

  // ---------------------------------------------------------------- per-step paths

  /** `render_from_json`: where image `i` of `count` is saved. With an output and exactly one
      image, the output itself; with an output and any other count, `<root>_step_<i><ext>` of
      the output; without an output, `debug/<stem>_step_<i>.png` of the record's file name. */
  function StepPath(jsonPath: string, output: Option<string>, count: nat, i: nat): string {
    if Truthy(output) then
      if count == 1 then output.value
      else
        var s := Splitext(output.value);
        s.root + StepMarker(i) + s.ext
    else DebugDir + (FileStem(jsonPath) + StepMarker(i)) + PngExt
  }

  /** `_step_<i>`, the marker a step index adds to a path: neither a dot nor a slash in it, and
      different for different steps. */
  function StepMarker(i: nat): (m: string)
    ensures |m| > 0 && m[0] != ExtSep && ExtSep !in m && PathSep !in m
  {
    var d := Decimal(i);
    assert forall k :: 0 <= k < |d| ==> IsDigit(d[k]);
    assert ExtSep !in d && PathSep !in d;
    "_step_" + d
  }

  lemma StepMarkerInjective(i: nat, j: nat)
    requires i != j
    ensures StepMarker(i) != StepMarker(j)
  {
    DecimalInjective(i, j);
    InfixDistinct("_step_", Decimal(i), Decimal(j), []);
    assert "_step_" + Decimal(i) + [] == StepMarker(i);
    assert "_step_" + Decimal(j) + [] == StepMarker(j);
  }

  /** Within one rendering, no two steps are saved to the same path. */
  lemma StepPathsDistinct(jsonPath: string, output: Option<string>, count: nat, i: nat, j: nat)
    requires i < j < count
    ensures StepPath(jsonPath, output, count, i) != StepPath(jsonPath, output, count, j)
  {
    StepMarkerInjective(i, j);
    if Truthy(output) {
      OutputStepPathsDistinct(output.value, i, j);
    } else {
      DefaultStepPathsDistinct(FileStem(jsonPath), i, j);
    }
  }

  lemma OutputStepPathsDistinct(output: string, i: nat, j: nat)
    requires StepMarker(i) != StepMarker(j)
    ensures var s := Splitext(output); s.root + StepMarker(i) + s.ext != s.root + StepMarker(j) + s.ext
  {
    var s := Splitext(output);
    InfixDistinct(s.root, StepMarker(i), StepMarker(j), s.ext);
  }

  lemma DefaultStepPathsDistinct(stem: string, i: nat, j: nat)
    requires StepMarker(i) != StepMarker(j)
    ensures DebugDir + (stem + StepMarker(i)) + PngExt != DebugDir + (stem + StepMarker(j)) + PngExt
  {
    InfixDistinct(DebugDir + stem, StepMarker(i), StepMarker(j), PngExt);
    assert DebugDir + (stem + StepMarker(i)) + PngExt == DebugDir + stem + StepMarker(i) + PngExt;
    assert DebugDir + (stem + StepMarker(j)) + PngExt == DebugDir + stem + StepMarker(j) + PngExt;
  }

  /** With an output and several (or no) images, each step path splits back into the output's
      root with the step marker and the output's own extension. */
  lemma StepPathKeepsExtension(jsonPath: string, output: string, count: nat, i: nat)
    requires output != "" && count != 1
    ensures Splitext(StepPath(jsonPath, Some(output), count, i))
         == Split(Splitext(output).root + StepMarker(i), Splitext(output).ext)
  {
    SplitextOfInsert(output, StepMarker(i));
  }

  /** Without an output, each step image is `<stem>_step_<i>.png` directly in the debug
      directory, where the stem is the record's file name without its extension. */
  lemma DefaultStepPathShape(jsonPath: string, count: nat, i: nat)
    ensures DebugImage(StepPath(jsonPath, None, count, i), FileStem(jsonPath) + StepMarker(i))
  {
    var stem := FileStem(jsonPath);
    NoSlashOfAppend(stem, StepMarker(i));
    NotAllDotsOfAppend(stem, StepMarker(i));
    DebugImageOf(stem + StepMarker(i));
  }

  /** `render_from_json` after rendering: every image paired with the path it is saved to. */
  function SaveSteps<I>(jsonPath: string, output: Option<string>, images: seq<I>): (saves: seq<(string, I)>)
    ensures |saves| == |images|
    ensures forall i :: 0 <= i < |saves| ==> saves[i].1 == images[i]
  {
    seq(|images|, i requires 0 <= i < |images| => (StepPath(jsonPath, output, |images|, i), images[i]))
  }

  /** The saved paths are pairwise distinct, so no image overwrites another. */
  predicate DistinctPaths<I>(saves: seq<(string, I)>) {
    forall i, j :: 0 <= i < j < |saves| ==> saves[i].0 != saves[j].0
  }

  lemma SaveStepsDistinct<I>(jsonPath: string, output: Option<string>, images: seq<I>)
    ensures DistinctPaths(SaveSteps(jsonPath, output, images))
  {
    var saves := SaveSteps(jsonPath, output, images);
    forall i, j | 0 <= i < j < |saves| ensures saves[i].0 != saves[j].0 {
      StepPathsDistinct(jsonPath, output, |saves|, i, j);
    }
  }

  /** With `--only_final` the single image is wrapped into a list; given an output it is saved
      to that output unchanged, otherwise as step 0 of the record. */
  lemma FinalOnlySavesOnce<I>(jsonPath: string, output: Option<string>, image: I)
    ensures Truthy(output) ==> SaveSteps(jsonPath, output, [image]) == [(output.value, image)]
    ensures !Truthy(output) ==>
              SaveSteps(jsonPath, output, [image]) == [(DebugDir + (FileStem(jsonPath) + "_step_0") + PngExt, image)]
  {
    var saves := SaveSteps(jsonPath, output, [image]);
    assert |saves| == 1;
    assert Decimal(0) == "0";
    assert StepMarker(0) == "_step_0";
    assert saves[0] == (StepPath(jsonPath, output, 1, 0), image);
  }

  // ---------------------------------------------------------------- main

  /** The command-line flags `main` reads; `--highlight` only changes the pictures. */
  datatype RenderArgs = RenderArgs(
    brickType: Option<string>,
    jsonPath: Option<string>,
    bricksPcPath: Option<string>,
    output: Option<string>,
    onlyFinal: bool,
    show: bool)

  /** The input `main` renders, first match wins; no input means the example brick. */
  datatype Source =
    | OneBrick(brickType: BrickType)
    | FromRecord(path: string)
    | FromAssemblyFile(path: string)

  function SourceOf(args: RenderArgs): (src: Source)
    ensures Truthy(args.brickType) ==> src == OneBrick(args.brickType.value)
    ensures !Truthy(args.brickType) && Truthy(args.jsonPath) ==> src == FromRecord(args.jsonPath.value)
    ensures !Truthy(args.brickType) && !Truthy(args.jsonPath) && Truthy(args.bricksPcPath) ==>
              src == FromAssemblyFile(args.bricksPcPath.value)
    ensures !Truthy(args.brickType) && !Truthy(args.jsonPath) && !Truthy(args.bricksPcPath) ==>
              src == OneBrick(ExampleBrickType)
    ensures src.FromRecord? <==> !Truthy(args.brickType) && Truthy(args.jsonPath)
    ensures src.FromAssemblyFile? <==> !Truthy(args.brickType) && !Truthy(args.jsonPath) && Truthy(args.bricksPcPath)
  {
    if Truthy(args.brickType) then OneBrick(args.brickType.value)
    else if Truthy(args.jsonPath) then FromRecord(args.jsonPath.value)
    else if Truthy(args.bricksPcPath) then FromAssemblyFile(args.bricksPcPath.value)
    else OneBrick(ExampleBrickType)
  }

  /** The renderer and the file system, as far as `main` consults them: whether a path exists,
      the picture of one brick (which fails for a type the renderer does not know), the rendering
      of a record file and the picture of a saved assembly (both of which may fail to load). */
  datatype RenderEnv<I> = RenderEnv(
    pathExists: string -> bool,
    brickImage: BrickType -> Result<I, Error>,
    renderRecord: (string, bool) -> Result<Rendered<I>, Error>,
    assemblyImage: string -> Result<I, Error>)

  /** How `main` ends: `sys.exit(1)` for a missing input file, an exception, or the images
      saved and, with `--show`, the one displayed. */
  datatype RenderRun<I> =
    | Exit(status: int)
    | Crash(error: Error)
    | Done(saves: seq<(string, I)>, shown: Option<I>)

  /** Whether the renderer fails on the selected input, once that input's file exists. */
  predicate RenderFails<I>(args: RenderArgs, env: RenderEnv<I>) {
    match SourceOf(args)
    case OneBrick(t) => env.brickImage(t).Failure?
    case FromRecord(p) =>
      var r := env.renderRecord(p, args.onlyFinal);
      r.Failure? || ImageList(r.value, args.onlyFinal).Failure? || |ImageList(r.value, args.onlyFinal).value| == 0
    case FromAssemblyFile(p) => env.assemblyImage(p).Failure?
  }

  /** `main`: render the selected input, save it, and display the first image with `--show`. */
  function RunRender<I>(args: RenderArgs, env: RenderEnv<I>): (run: RenderRun<I>)
    ensures run.Exit? <==>
              match SourceOf(args)
              case OneBrick(_) => false
              case FromRecord(p) => !env.pathExists(p)
              case FromAssemblyFile(p) => !env.pathExists(p)
    ensures run.Exit? ==> run.status == 1
    ensures run.Crash? <==> !run.Exit? && RenderFails(args, env)
    ensures run.Done? ==> |run.saves| > 0 && DistinctPaths(run.saves)
    ensures run.Done? ==> run.shown == (if args.show then Some(run.saves[0].1) else None)
    ensures SourceOf(args).OneBrick? && env.brickImage(SourceOf(args).brickType).Success? ==>
              var image := env.brickImage(SourceOf(args).brickType).value;
              run == Done([(SingleBrickPath(SourceOf(args).brickType, args.output), image)],
                          if args.show then Some(image) else None)
    ensures SourceOf(args).FromRecord? && env.pathExists(SourceOf(args).path)
            && env.renderRecord(SourceOf(args).path, args.onlyFinal).Success?
            && ImageList(env.renderRecord(SourceOf(args).path, args.onlyFinal).value, args.onlyFinal).Success?
            && |ImageList(env.renderRecord(SourceOf(args).path, args.onlyFinal).value, args.onlyFinal).value| > 0 ==>
              var images := ImageList(env.renderRecord(SourceOf(args).path, args.onlyFinal).value, args.onlyFinal).value;
              run == Done(SaveSteps(SourceOf(args).path, args.output, images), if args.show then Some(images[0]) else None)
    ensures SourceOf(args).FromAssemblyFile? && env.pathExists(SourceOf(args).path)
            && env.assemblyImage(SourceOf(args).path).Success? ==>
              var image := env.assemblyImage(SourceOf(args).path).value;
              run == Done([(AssemblyImagePath(SourceOf(args).path, args.output), image)],
                          if args.show then Some(image) else None)
  {
    match SourceOf(args)
    case OneBrick(t) =>
      (match env.brickImage(t)
       case Failure(e) => Crash(e)
       case Success(image) =>
         Done([(SingleBrickPath(t, args.output), image)], if args.show then Some(image) else None))
    case FromRecord(p) =>
      if !env.pathExists(p) then Exit(1)
      else
        (match env.renderRecord(p, args.onlyFinal)
         case Failure(e) => Crash(e)
         case Success(rendered) =>
           match ImageList(rendered, args.onlyFinal)
           case Failure(e) => Crash(e)
           case Success(images) =>
             var saves := SaveSteps(p, args.output, images);
             if |saves| == 0 then Crash(NoImages)
             else
               SaveStepsDistinct(p, args.output, images);
               Done(saves, if args.show then Some(saves[0].1) else None))
    case FromAssemblyFile(p) =>
      if !env.pathExists(p) then Exit(1)
      else
        (match env.assemblyImage(p)
         case Failure(e) => Crash(e)
         case Success(image) =>
           Done([(AssemblyImagePath(p, args.output), image)], if args.show then Some(image) else None))
  }

  /** A crash carries the renderer's own error, or `NoImages` when a record renders nothing. */
  lemma RenderCrashError<I>(args: RenderArgs, env: RenderEnv<I>)
    requires RunRender(args, env).Crash?
    ensures match SourceOf(args)
            case OneBrick(t) => env.brickImage(t) == Failure(RunRender(args, env).error)
            case FromRecord(p) =>
              var r := env.renderRecord(p, args.onlyFinal);
              || r == Failure(RunRender(args, env).error)
              || (r.Success? && ImageList(r.value, args.onlyFinal) == Failure(RunRender(args, env).error))
              || (r.Success? && RunRender(args, env).error == NoImages)
            case FromAssemblyFile(p) => env.assemblyImage(p) == Failure(RunRender(args, env).error)
  {
  }

  /** A record rendered with `--only_final` and an output saves its one image to that output. */
  lemma FinalRecordRun<I>(args: RenderArgs, env: RenderEnv<I>, image: I)
    requires SourceOf(args).FromRecord? && env.pathExists(SourceOf(args).path) && Truthy(args.output)
    requires args.onlyFinal && env.renderRecord(SourceOf(args).path, true) == Success(Single(image))
    ensures RunRender(args, env) == Done([(args.output.value, image)], if args.show then Some(image) else None)
  {
    FinalOnlySavesOnce(SourceOf(args).path, args.output, image);
  }

  /** `render_custom_bricks`: the bricks are the zipped triples, saved to the output or to
      `debug/custom_bricks.png`. */
  function RenderCustomBricks(types: seq<BrickType>, positions: seq<Coords>, rotations: seq<Coords>,
                              output: Option<string>): (r: (seq<Brick>, string))
    ensures |r.0| == Min(Min(|types|, |positions|), |rotations|)
    ensures forall i :: 0 <= i < |r.0| ==> r.0[i] == Brick(types[i], positions[i], rotations[i])
  {
    (Zip3(types, positions, rotations), if Truthy(output) then output.value else CustomBricksPath)
  }

  /** The default custom-bricks image is `custom_bricks.png` directly in the debug directory. */
  lemma CustomBricksPathShape()
    ensures DebugImage(CustomBricksPath, "custom_bricks")
  {
    var stem := "custom_bricks";
    assert stem[0] != ExtSep && PathSep !in stem;
    DebugImageOf(stem);
  }
}

=== FILE: text.dfy ===
/**
 * The parts of Python's `str` behaviour the command-line front ends rely on:
 * whitespace stripping and splitting, splitting on a separator, ASCII lower-casing,
 * suffix tests and decimal formatting of non-negative integers.
 */
module Text {

  /** The characters Python's `str.isspace` accepts; `str.split()` and `str.strip()`
      with no argument separate on exactly these. */
  predicate IsSpace(c: char) {
    || c == ' '
    || ('\t' <= c <= '\r')
    || ('\U{1C}' <= c <= '\U{1F}')
    || c == '\U{85}' || c == '\U{A0}' || c == '\U{1680}'
    || ('\U{2000}' <= c <= '\U{200A}')
    || c == '\U{2028}' || c == '\U{2029}' || c == '\U{202F}' || c == '\U{205F}' || c == '\U{3000}'
  }

  predicate NoSpace(s: string) {
    forall k :: 0 <= k < |s| ==> !IsSpace(s[k])
  }

  /** A non-empty token without whitespace: what `str.split()` produces. */
  predicate IsWord(w: string) {
    w != "" && NoSpace(w)
  }

  /** `s.lstrip()`: drops the leading whitespace. */
  function TrimStart(s: string): (r: string)
    ensures |r| <= |s| && r == s[|s| - |r|..]
    ensures r == "" || !IsSpace(r[0])
    ensures forall k :: 0 <= k < |s| - |r| ==> IsSpace(s[k])
  {
    if |s| > 0 && IsSpace(s[0]) then
      var r := TrimStart(s[1..]);
      assert s[1..][|s| - 1 - |r|..] == s[|s| - |r|..];
      assert forall k :: 1 <= k < |s| - |r| ==> s[k] == s[1..][k - 1];
      r
    else s
  }

  /** `s.rstrip()`: drops the trailing whitespace. */
  function TrimEnd(s: string): (r: string)
    ensures |r| <= |s| && r == s[..|r|]
    ensures r == "" || !IsSpace(r[|r| - 1])
    ensures forall k :: |r| <= k < |s| ==> IsSpace(s[k])
  {
    if |s| > 0 && IsSpace(s[|s| - 1]) then
      var r := TrimEnd(s[..|s| - 1]);
      assert s[..|s| - 1][..|r|] == s[..|r|];
      assert forall k :: |r| <= k < |s| - 1 ==> s[k] == s[..|s| - 1][k];
      r
    else s
  }

  /** `s.strip()`. */
  function Strip(s: string): string {
    TrimEnd(TrimStart(s))
  }

  /** `r` sits at offset `i` of `s` with only whitespace around it. */
  predicate PaddedAt(s: string, i: nat, r: string) {
    && i + |r| <= |s| && s[i..i + |r|] == r
    && (forall k :: 0 <= k < i ==> IsSpace(s[k]))
    && (forall k :: i + |r| <= k < |s| ==> IsSpace(s[k]))
  }

  /** `strip()` removes exactly the leading and trailing whitespace: what is left neither starts
      nor ends with whitespace, and the input is it with whitespace around. */
  lemma StripShape(s: string)
    ensures var r := Strip(s); r == "" || (!IsSpace(r[0]) && !IsSpace(r[|r| - 1]))
    ensures exists i: nat :: PaddedAt(s, i, Strip(s))
  {
    var t := TrimStart(s);
    var r := TrimEnd(t);
    var i := |s| - |t|;
    assert t == s[i..];
    assert r == t[..|r|];
    assert s[i..i + |r|] == r;
    assert forall k :: i + |r| <= k < |s| ==> s[k] == t[k - i];
    assert PaddedAt(s, i, r);
  }

  /** Stripping twice is stripping once. */
  lemma StripIdempotent(s: string)
    ensures Strip(Strip(s)) == Strip(s)
  {
    var r := Strip(s);
    StripShape(s);
    assert TrimStart(r) == r;
    assert TrimEnd(r) == r;
  }

  /** Index of the first whitespace character of `s`, or `|s|` when it has none. */
  function WordEnd(s: string): (n: nat)
    ensures n <= |s| && NoSpace(s[..n])
    ensures n < |s| ==> IsSpace(s[n])
  {
    if |s| == 0 || IsSpace(s[0]) then 0 else 1 + WordEnd(s[1..])
  }

  /** `s.split()`: the maximal runs of non-whitespace characters, in order. `WordsOfSpaced`
      and `SpacedOfWords` characterise it. */
  function Words(s: string): seq<string>
    decreases |s|
  {
    var t := TrimStart(s);
    if t == "" then []
    else
      var n := WordEnd(t);
      assert n != 0 by { assert !IsSpace(t[0]); }
      [t[..n]] + Words(t[n..])
  }

  /** Every token `split()` returns is non-empty and free of whitespace. */
  lemma {:induction false} WordsAreWords(s: string)
    ensures forall i :: 0 <= i < |Words(s)| ==> IsWord(Words(s)[i])
    decreases |s|
  {
    var t := TrimStart(s);
    if t != "" {
      var n := WordEnd(t);
      assert !IsSpace(t[0]);
      WordsAreWords(t[n..]);
      AllWordsCons(t[..n], Words(t[n..]));
    }
  }

  lemma AllWordsCons(w: string, ws: seq<string>)
    requires w != "" && NoSpace(w)
    requires forall i :: 0 <= i < |ws| ==> IsWord(ws[i])
    ensures forall i :: 0 <= i < |[w] + ws| ==> IsWord(([w] + ws)[i])
  {
    var all := [w] + ws;
    forall i | 0 <= i < |all| ensures IsWord(all[i]) {
      if i > 0 { assert all[i] == ws[i - 1]; }
    }
  }

  /** `" ".join(ws)`. */
  function JoinWords(ws: seq<string>): string {
    if |ws| == 0 then ""
    else if |ws| == 1 then ws[0]
    else ws[0] + " " + JoinWords(ws[1..])
  }

  predicate AllSpace(s: string) {
    forall k :: 0 <= k < |s| ==> IsSpace(s[k])
  }

  /** Words with whitespace around them: `gaps[0] + ws[0] + gaps[1] + ... + ws[n-1] + gaps[n]`. */
  function Spaced(ws: seq<string>, gaps: seq<string>): string
    requires |gaps| == |ws| + 1
  {
    if |ws| == 0 then gaps[0] else gaps[0] + ws[0] + Spaced(ws[1..], gaps[1..])
  }

  /** Whitespace that separates words: all of it whitespace, and some of it between any two words;
      the leading and trailing gaps may be empty. */
  predicate Separating(ws: seq<string>, gaps: seq<string>) {
    && |gaps| == |ws| + 1
    && (forall i :: 0 <= i < |gaps| ==> AllSpace(gaps[i]))
    && (forall i :: 0 < i < |ws| ==> gaps[i] != "")
  }

  /** `split()` gives back the words of any text that is those words separated by whitespace:
      runs of any whitespace characters between them, and any whitespace around them. */
  lemma {:induction false} WordsOfSpaced(ws: seq<string>, gaps: seq<string>)
    requires forall i :: 0 <= i < |ws| ==> IsWord(ws[i])
    requires Separating(ws, gaps)
    ensures Words(Spaced(ws, gaps)) == ws
  {
    if |ws| == 0 {
      WordsOfBlank(gaps[0]);
    } else {
      SeparatingTail(ws, gaps);
      WordsOfSpaced(ws[1..], gaps[1..]);
      WordsOfSpacedStep(ws, gaps);
    }
  }

  lemma SeparatingTail(ws: seq<string>, gaps: seq<string>)
    requires |ws| > 0 && Separating(ws, gaps)
    requires forall i :: 0 <= i < |ws| ==> IsWord(ws[i])
    ensures Separating(ws[1..], gaps[1..])
    ensures forall i :: 0 <= i < |ws[1..]| ==> IsWord(ws[1..][i])
  {
    assert forall i :: 0 <= i < |ws| - 1 ==> ws[1..][i] == ws[i + 1];
    assert forall i :: 0 <= i < |gaps| - 1 ==> gaps[1..][i] == gaps[i + 1];
  }

  /** The first word comes off the front. */
  lemma WordsOfSpacedStep(ws: seq<string>, gaps: seq<string>)
    requires |ws| > 0 && Separating(ws, gaps) && IsWord(ws[0])
    requires Words(Spaced(ws[1..], gaps[1..])) == ws[1..]
    ensures Words(Spaced(ws, gaps)) == ws
  {
    var s, rest := Spaced(ws, gaps), Spaced(ws[1..], gaps[1..]);
    SpacedRestStart(ws, gaps);
    WordsOfWordBetween(s, gaps[0], ws[0], rest);
    ConsTail(ws);
  }

  /** Sequence identities the whitespace proofs take one at a time, to keep each step small. */
  lemma ConsTail<T>(xs: seq<T>)
    requires |xs| > 0
    ensures [xs[0]] + xs[1..] == xs
  {
  }

  /** A text made of whitespace, a word, and whitespace or nothing before the rest. */
  lemma WordsOfWordBetween(s: string, sp: string, w: string, rest: string)
    requires s == sp + w + rest
    requires AllSpace(sp) && IsWord(w)
    requires rest == "" || IsSpace(rest[0])
    ensures Words(s) == [w] + Words(rest)
  {
    WordsOfWordInSpace(sp, w, rest);
  }

  /** After the first word, the rest of the text starts with whitespace or is empty. */
  lemma SpacedRestStart(ws: seq<string>, gaps: seq<string>)
    requires |ws| > 0 && Separating(ws, gaps)
    ensures Spaced(ws, gaps) == gaps[0] + ws[0] + Spaced(ws[1..], gaps[1..])
    ensures var rest := Spaced(ws[1..], gaps[1..]); rest == "" || IsSpace(rest[0])
  {
    var rest := Spaced(ws[1..], gaps[1..]);
    var g := gaps[1..][0];
    assert g == gaps[1] && AllSpace(g);
    if |ws| == 1 {
      assert rest == g;
    } else {
      assert g != "";
      assert rest == g + ws[1..][0] + Spaced(ws[1..][1..], gaps[1..][1..]);
      assert rest[0] == g[0];
    }
  }

  /** Every text is its words separated by whitespace: with `WordsOfSpaced`, `split()` gives
      exactly the whitespace-separated words, whatever the whitespace. */
  lemma {:induction false} SpacedOfWords(s: string) returns (gaps: seq<string>)
    ensures Separating(Words(s), gaps) && Spaced(Words(s), gaps) == s
    decreases |s|
  {
    var t := TrimStart(s);
    if t == "" {
      gaps := [s];
      BlankSpaced(s);
    } else {
      var n := WordEnd(t);
      assert n != 0 by { assert !IsSpace(t[0]); }
      var g := SpacedOfWords(t[n..]);
      gaps := SpacedOfWordsFirst(s, g);
    }
  }

  lemma BlankSpaced(s: string)
    requires TrimStart(s) == ""
    ensures Separating(Words(s), [s]) && Spaced(Words(s), [s]) == s
  {
    assert Words(s) == [];
    assert AllSpace(s);
  }

  /** The gaps of a text with a first word: its leading whitespace, then the gaps of the rest. */
  lemma SpacedOfWordsFirst(s: string, g: seq<string>) returns (gaps: seq<string>)
    requires TrimStart(s) != ""
    requires var t := TrimStart(s); var rest := t[WordEnd(t)..];
             Separating(Words(rest), g) && Spaced(Words(rest), g) == rest
    ensures Separating(Words(s), gaps) && Spaced(Words(s), gaps) == s
  {
    var lead, w, rest := FirstWordSplit(s);
    gaps := [lead] + g;
    SpacedOfWordsStep(s, lead, w, rest, g);
  }

  /** A text with a first word is its leading whitespace, that word, and the rest. */
  lemma FirstWordSplit(s: string) returns (lead: string, w: string, rest: string)
    requires TrimStart(s) != ""
    ensures s == lead + w + rest && AllSpace(lead)
    ensures rest == TrimStart(s)[WordEnd(TrimStart(s))..]
    ensures Words(s) == [w] + Words(rest) && (rest == "" || IsSpace(rest[0]))
  {
    var t := TrimStart(s);
    lead := LeadingSpace(s);
    var n := WordEnd(t);
    assert n != 0 by { assert !IsSpace(t[0]); }
    w, rest := t[..n], t[n..];
    SplitAt(t, n);
    ConcatAssoc(lead, w, rest);
    WordsOfFirstWord(s, t, w, rest);
  }

  lemma ConcatAssoc<T>(a: seq<T>, b: seq<T>, c: seq<T>)
    ensures a + (b + c) == a + b + c
  {
  }

  lemma WordsOfFirstWord(s: string, t: string, w: string, rest: string)
    requires TrimStart(s) == t && t == w + rest && w != "" && WordEnd(t) == |w|
    ensures Words(s) == [w] + Words(rest)
    ensures rest == "" || IsSpace(rest[0])
  {
    WordsOfTrimmedCons(s, w, rest);
  }

  /** The whitespace `lstrip()` removes. */
  lemma LeadingSpace(s: string) returns (lead: string)
    ensures s == lead + TrimStart(s) && AllSpace(lead)
  {
    var t := TrimStart(s);
    lead := s[..|s| - |t|];
    SplitAt(s, |s| - |t|);
  }

  lemma SplitAt<T>(xs: seq<T>, k: nat)
    requires k <= |xs|
    ensures xs[..k] + xs[k..] == xs
  {
  }

  lemma SpacedOfWordsStep(s: string, lead: string, w: string, rest: string, g: seq<string>)
    requires s == lead + w + rest && AllSpace(lead)
    requires Words(s) == [w] + Words(rest) && (rest == "" || IsSpace(rest[0]))
    requires Separating(Words(rest), g) && Spaced(Words(rest), g) == rest
    ensures Separating(Words(s), [lead] + g) && Spaced(Words(s), [lead] + g) == s
  {
    WordsAreWords(rest);
    FirstGapOfSpaced(Words(rest), g, rest);
    SpacedCons(lead, w, Words(rest), g);
    SeparatingCons(lead, w, Words(rest), g);
  }

  /** When the text left after the first word is not empty, it starts with whitespace. */
  lemma WordsOfTrimmedCons(s: string, w: string, rest: string)
    requires TrimStart(s) == w + rest && w != "" && WordEnd(w + rest) == |w|
    ensures Words(s) == [w] + Words(rest)
    ensures rest == "" || IsSpace(rest[0])
  {
    var t := w + rest;
    assert t[..|w|] == w;
    assert t[|w|..] == rest;
    assert |w| < |t| ==> rest[0] == t[|w|];
  }

  /** A text of words that starts with whitespace has a non-empty leading gap. */
  lemma FirstGapOfSpaced(ws: seq<string>, gaps: seq<string>, s: string)
    requires |gaps| == |ws| + 1 && Spaced(ws, gaps) == s
    requires forall i :: 0 <= i < |ws| ==> IsWord(ws[i])
    requires s == "" || IsSpace(s[0])
    ensures |ws| > 0 ==> gaps[0] != ""
  {
    if |ws| > 0 {
      var g := gaps[0];
      assert s == g + ws[0] + Spaced(ws[1..], gaps[1..]);
      assert s[|g|] == ws[0][0];
    }
  }

  lemma SpacedCons(lead: string, w: string, ws: seq<string>, gaps: seq<string>)
    requires |gaps| == |ws| + 1
    ensures Spaced([w] + ws, [lead] + gaps) == lead + w + Spaced(ws, gaps)
  {
    assert ([w] + ws)[1..] == ws;
    assert ([lead] + gaps)[1..] == gaps;
  }

  lemma SeparatingCons(lead: string, w: string, ws: seq<string>, gaps: seq<string>)
    requires AllSpace(lead) && Separating(ws, gaps) && (|ws| > 0 ==> gaps[0] != "")
    ensures Separating([w] + ws, [lead] + gaps)
  {
    var ws', gaps' := [w] + ws, [lead] + gaps;
    assert forall i :: 0 < i < |gaps'| ==> gaps'[i] == gaps[i - 1];
  }

  /** Whitespace alone has no words. */
  lemma WordsOfBlank(sp: string)
    requires AllSpace(sp)
    ensures Words(sp) == []
  {
    TrimStartOfSpace(sp, "");
    assert sp + "" == sp;
  }

  /** Stripping whitespace in front of text that does not start with whitespace leaves that text. */
  lemma TrimStartOfSpace(sp: string, t: string)
    requires AllSpace(sp) && (t == "" || !IsSpace(t[0]))
    ensures TrimStart(sp + t) == t
  {
    var s := sp + t;
    assert forall k :: 0 <= k < |sp| ==> s[k] == sp[k];
    assert t != "" ==> s[|sp|] == t[0];
    assert s[|sp|..] == t;
  }

  /** A word after some whitespace, followed by whitespace or nothing, is the first word. */
  lemma WordsOfWordInSpace(sp: string, w: string, rest: string)
    requires AllSpace(sp) && IsWord(w)
    requires rest == "" || IsSpace(rest[0])
    ensures Words(sp + w + rest) == [w] + Words(rest)
  {
    var t := w + rest;
    assert sp + w + rest == sp + t;
    assert t[0] == w[0];
    TrimStartOfSpace(sp, t);
    WordsOfSameTrim(sp + t, t);
    WordsOfWordThen(w, rest);
  }

  /** A word followed by whitespace or nothing is the first word. */
  lemma WordsOfWordThen(w: string, rest: string)
    requires IsWord(w)
    requires rest == "" || IsSpace(rest[0])
    ensures Words(w + rest) == [w] + Words(rest)
  {
    var t := w + rest;
    assert t[0] == w[0];
    assert TrimStart(t) == t;
    WordEndOfWord(w, rest);
    WordsOfTrimmedCons(t, w, rest);
  }

  /** Splitting a space-joined list of tokens gives the tokens back. */
  lemma {:induction false} WordsOfJoin(ws: seq<string>)
    requires forall i :: 0 <= i < |ws| ==> IsWord(ws[i])
    ensures Words(JoinWords(ws)) == ws
  {
    if |ws| == 1 {
      WordsOfOneWord(ws[0]);
    } else if |ws| > 1 {
      assert forall i :: 0 <= i < |ws[1..]| ==> IsWord(ws[1..][i]);
      WordsOfJoin(ws[1..]);
      assert JoinWords(ws) == ws[0] + " " + JoinWords(ws[1..]);
      WordThenSpaced(ws[0], JoinWords(ws[1..]));
      assert [ws[0]] + ws[1..] == ws;
    }
  }

  lemma WordsOfOneWord(w: string)
    requires IsWord(w)
    ensures Words(w) == [w]
  {
    var none: string := [];
    WordsOfWordBetween(w, none, w, none);
    WordsOfBlank(none);
    assert [w] + Words(none) == [w];
  }

  /** A word, a space and a text: the word, then the text's words. */
  lemma WordThenSpaced(w: string, j: string)
    requires IsWord(w)
    ensures Words(w + " " + j) == [w] + Words(j)
  {
    var sj := " " + j;
    assert sj[0] == ' ';
    WordsOfWordThen(w, sj);
    assert w + sj == w + " " + j;
    WordsAfterSpace(" ", j);
  }

  /** Whitespace in front of a text does not change its words. */
  lemma WordsAfterSpace(sp: string, t: string)
    requires AllSpace(sp)
    ensures Words(sp + t) == Words(t)
  {
    var t' := TrimStart(t);
    var lead := LeadingSpace(t);
    var sl := sp + lead;
    AllSpaceConcat(sp, lead);
    ConcatAssoc(sp, lead, t');
    TrimStartOfSpace(sl, t');
    WordsOfSameTrim(sp + t, t);
  }

  lemma AllSpaceConcat(a: string, b: string)
    requires AllSpace(a) && AllSpace(b)
    ensures AllSpace(a + b)
  {
    var ab := a + b;
    assert forall k :: |a| <= k < |ab| ==> ab[k] == b[k - |a|];
  }

  /** `split()` looks only at what is left after the leading whitespace. */
  lemma WordsOfSameTrim(s: string, s': string)
    requires TrimStart(s) == TrimStart(s')
    ensures Words(s) == Words(s')
  {
    var t := TrimStart(s);
    if t != "" {
      var n := WordEnd(t);
      assert Words(s) == [t[..n]] + Words(t[n..]);
      assert Words(s') == [t[..n]] + Words(t[n..]);
    }
  }

  /** A whitespace-free prefix followed by whitespace (or nothing) ends the first word. */
  lemma WordEndOfWord(w: string, rest: string)
    requires NoSpace(w)
    requires rest == "" || IsSpace(rest[0])
    ensures WordEnd(w + rest) == |w|
  {
    var s := w + rest;
    var n := WordEnd(s);
    assert forall k :: 0 <= k < |w| ==> s[k] == w[k];
    assert |w| < |s| ==> IsSpace(s[|w|]);
  }

  /** A space-joined list of words starts with the first word's first character. */
  lemma JoinWordsStart(ws: seq<string>)
    requires |ws| > 0 && ws[0] != ""
    ensures JoinWords(ws) != "" && JoinWords(ws)[0] == ws[0][0]
  {
  }

  /** A space-joined list of two or more words contains a space. */
  lemma JoinWordsHasSpace(ws: seq<string>)
    requires |ws| > 1
    ensures ' ' in JoinWords(ws)
  {
    assert JoinWords(ws)[|ws[0]|] == ' ';
  }

  /** Index of the first occurrence of `c` in `s`, or -1. */
  function IndexOf(s: string, c: char): (r: int)
    ensures -1 <= r < |s|
    ensures r >= 0 ==> s[r] == c
    ensures forall k :: 0 <= k < |s| && (r < 0 || k < r) ==> s[k] != c
  {
    if |s| == 0 then -1
    else if s[0] == c then 0
    else var r := IndexOf(s[1..], c); if r < 0 then -1 else r + 1
  }

  /** `sep.join(parts)` for a one-character separator. */
  function JoinWith(parts: seq<string>, sep: char): string
    requires |parts| > 0
  {
    if |parts| == 1 then parts[0] else parts[0] + [sep] + JoinWith(parts[1..], sep)
  }

  /** `s.split(sep)` for a one-character separator: every separator splits, empty pieces included. */
  function SplitOn(s: string, sep: char): (parts: seq<string>)
    ensures |parts| > 0
    ensures forall i :: 0 <= i < |parts| ==> sep !in parts[i]
    ensures JoinWith(parts, sep) == s
    decreases |s|
  {
    var i := IndexOf(s, sep);
    if i < 0 then [s]
    else
      var rest := SplitOn(s[i + 1..], sep);
      SplitOnCons(s, sep, i, rest);
      [s[..i]] + rest
  }

  /** The first piece, up to the first separator, followed by the pieces of the remainder. */
  lemma SplitOnCons(s: string, sep: char, i: nat, rest: seq<string>)
    requires i < |s| && s[i] == sep
    requires forall k :: 0 <= k < i ==> s[k] != sep
    requires |rest| > 0 && JoinWith(rest, sep) == s[i + 1..]
    requires forall j :: 0 <= j < |rest| ==> sep !in rest[j]
    ensures forall j :: 0 <= j < |[s[..i]] + rest| ==> sep !in ([s[..i]] + rest)[j]
    ensures JoinWith([s[..i]] + rest, sep) == s
  {
    var parts := [s[..i]] + rest;
    assert parts[1..] == rest;
    assert s == s[..i] + [sep] + s[i + 1..];
    assert forall j :: 1 <= j < |parts| ==> parts[j] == rest[j - 1];
  }

  /** Splitting a joined list of separator-free pieces gives the pieces back. */
  lemma {:induction false} SplitOfJoin(parts: seq<string>, sep: char)
    requires |parts| > 0
    requires forall i :: 0 <= i < |parts| ==> sep !in parts[i]
    ensures SplitOn(JoinWith(parts, sep), sep) == parts
  {
    var s := JoinWith(parts, sep);
    if |parts| == 1 {
      assert IndexOf(s, sep) < 0;
    } else {
      var p := parts[0];
      var rest := JoinWith(parts[1..], sep);
      assert s == p + [sep] + rest;
      assert s[|p|] == sep;
      assert IndexOf(s, sep) == |p| by {
        assert forall k :: 0 <= k < |p| ==> s[k] == p[k];
      }
      assert s[..|p|] == p;
      assert s[|p| + 1..] == rest;
      SplitOfJoin(parts[1..], sep);
    }
  }

  function LowerChar(c: char): char {
    if 'A' <= c <= 'Z' then (c as int + 32) as char else c
  }

  /** `s.lower()` restricted to ASCII letters. */
  function Lower(s: string): string {
    seq(|s|, k requires 0 <= k < |s| => LowerChar(s[k]))
  }

  /** Lower-casing twice is lower-casing once. */
  lemma LowerIdempotent(s: string)
    ensures Lower(Lower(s)) == Lower(s)
  {
  }

  /** `s.endswith(suffix)`. */
  predicate EndsWith(s: string, suffix: string) {
    |suffix| <= |s| && s[|s| - |suffix|..] == suffix
  }

  predicate IsDigit(c: char) {
    '0' <= c <= '9'
  }

  predicate AllDigits(s: string) {
    forall k :: 0 <= k < |s| ==> IsDigit(s[k])
  }

  function DigitValue(c: char): nat
    requires IsDigit(c)
  {
    c as int - '0' as int
  }

  function DigitChar(d: nat): (c: char)
    requires d < 10
    ensures IsDigit(c) && DigitValue(c) == d
  {
    ('0' as int + d) as char
  }

  /** The number a string of decimal digits denotes (leading zeros allowed). */
  function DigitsValue(s: string): nat
    requires AllDigits(s)
  {
    if |s| == 0 then 0 else 10 * DigitsValue(s[..|s| - 1]) + DigitValue(s[|s| - 1])
  }

  /** `str(n)` (`f"{n}"`) for a non-negative integer. */
  function Decimal(n: nat): (r: string)
    ensures |r| > 0 && AllDigits(r)
    ensures |r| > 1 ==> r[0] != '0'
  {
    if n < 10 then [DigitChar(n)] else Decimal(n / 10) + [DigitChar(n % 10)]
  }

  /** Reading back the decimal form of `n` gives `n`. */
  lemma {:induction false} DecimalValue(n: nat)
    ensures DigitsValue(Decimal(n)) == n
  {
    if n >= 10 {
      var s := Decimal(n);
      assert s[..|s| - 1] == Decimal(n / 10);
      DecimalValue(n / 10);
    }
  }

  /** Distinct numbers have distinct decimal forms. */
  lemma DecimalInjective(m: nat, n: nat)
    requires m != n
    ensures Decimal(m) != Decimal(n)
  {
    DecimalValue(m);
    DecimalValue(n);
  }

  function Zeros(k: nat): (r: string)
    ensures |r| == k && AllDigits(r)
    ensures forall i :: 0 <= i < k ==> r[i] == '0'
  {
    seq(k, _ => '0')
  }

  /** Leading zeros do not change the value of a digit string. */
  lemma {:induction false} ZerosPrefixValue(k: nat, s: string)
    requires AllDigits(s)
    ensures AllDigits(Zeros(k) + s) && DigitsValue(Zeros(k) + s) == DigitsValue(s)
    decreases |s| + k
  {
    var t := Zeros(k) + s;
    if |s| > 0 {
      assert t[..|t| - 1] == Zeros(k) + s[..|s| - 1];
      ZerosPrefixValue(k, s[..|s| - 1]);
    } else if k > 0 {
      assert t[..|t| - 1] == Zeros(k - 1) + s;
      ZerosPrefixValue(k - 1, s);
    }
  }

  /** `f"{n:0{width}d}"`: `n` in decimal, left-padded with zeros to at least `width` characters. */
  function PaddedDecimal(n: nat, width: nat): (r: string)
    ensures AllDigits(r) && DigitsValue(r) == n
    ensures |r| >= width && |r| >= |Decimal(n)|
    ensures |r| == width || r == Decimal(n)
  {
    var d := Decimal(n);
    var z := if |d| < width then width - |d| else 0;
    DecimalValue(n);
    ZerosPrefixValue(z, d);
    assert z == 0 ==> Zeros(z) + d == d;
    Zeros(z) + d
  }

  /** Different middles between a common prefix and a common suffix give different strings. */
  lemma InfixDistinct(a: string, m1: string, m2: string, e: string)
    requires m1 != m2
    ensures a + m1 + e != a + m2 + e
  {
    var s1 := a + m1 + e;
    var s2 := a + m2 + e;
    if |m1| == |m2| {
      assert s1[|a|..|a| + |m1|] == m1;
      assert s2[|a|..|a| + |m2|] == m2;
    }
  }

  /** Different texts followed by a common suffix, in the same surroundings, stay different. */
  lemma InfixSuffixDistinct(a: string, m1: string, m2: string, x: string, e: string)
    requires m1 != m2
    ensures a + (m1 + x) + e != a + (m2 + x) + e
  {
    assert a + (m1 + x) + e == a + m1 + (x + e);
    assert a + (m2 + x) + e == a + m2 + (x + e);
    InfixDistinct(a, m1, m2, x + e);
  }
}

=== FILE: wrappers.dfy ===
/** Optional values and failure-carrying results, usable with `:-`. */
module Wrappers {

  /** A value that may be absent, as Python's `None`. */
  datatype Option<+T> = None | Some(value: T)

  /** Either a value or the error that stopped the computation (a raised exception in the source). */
  datatype Result<+T, +E> = Success(value: T) | Failure(error: E) {

    predicate IsFailure() {
      Failure?
    }

    function PropagateFailure<U>(): Result<U, E>
      requires Failure?
    {
      Failure(error)
    }

    function Extract(): T
      requires Success?
    {
      value
    }
  }

  /** Python truthiness of an optional string: present and non-empty. */
  predicate Truthy(s: Option<string>) {
    s.Some? && s.value != ""
  }
}
